=== FILE: README.md ===
# Option selection for Streamlit's multiselect, button-group and feedback widgets

This project models the layer that turns what a caller passes to
`st.multiselect`, the button group and `st.feedback` into lists of option
indices, and turns those index lists back into option values. It covers:

- default normalisation: a `None`, list, tuple, set, array-like or scalar
  default becomes the list of the first positions of its values among the
  options, or an error naming the first value that is not an option;
- `transform_options`: one label per option and the default indices;
- the index-list serde and the feedback serdes built on it;
- the max-selections count, the rule and its message;
- the emission rule, which writes an override into the proto only when the
  registry reports a changed value;
- the proto builders, as plain records.

The repository holds two copies of the option-selector utilities. The newer
copy is `options_selector/options_selector_utils.py` and the older one is
`multiselect_utils.py`. There are also two button groups, the newer
`options_selector/button_group.py` and the older `button_group.py`. Each
source file has its own module:

| module | source file |
|---|---|
| `OptionsSelectorUtils` | `options_selector/options_selector_utils.py` |
| `MultiselectUtils` | `multiselect_utils.py` |
| `FeedbackUtils` | `options_selector/feedback_utils.py` |
| `ButtonGroup` | `options_selector/button_group.py` |
| `LegacyButtonGroup` | `button_group.py` |
| `MultiSelect` | `options_selector/multiselect.py` |

Four shared modules support them. `Results` holds the `Option` and `Result`
types. `PyModel` holds Python's type dispatch, `x in xs`, `xs.index(x)`,
`xs[i]` and `float` on the example values. `WidgetRuntime` holds the policy
gate, the registry's answer, the proto record and the emission rule. `Text`
holds `str` on integers.

How the model represents Python:

- **Options** are a type `T` with equality. Python's `None` among the options
  is recognised by a predicate `isNone`.
- **Defaults and stored values** are an `ArgShape`, which says how Python's
  type dispatch sees them: `None`, a list, another container, or a scalar with
  its truth value and, when it is iterable, what iterating it yields.
- **Exceptions** are `Err` values of `SelectorError`: a policy violation, an
  invalid default, a non-iterable default, an index out of range, too many
  selections, an invalid feedback style, a value `float` cannot convert, and
  a call of something that is not a function.
- **The too-many-selections exception** keeps its two numbers and which copy
  of the message raised it (`NewerLayout` or `OlderLayout`). The text is the
  layout's `OverMaxOptionsMessage` of those numbers. Both copies join the
  same phrases, each with its own choice of space or line break between
  them, so read as one line the two messages are the same text.
- **`float`** is a parameter of the feedback serde, `toFloat`, that gives no
  value where Python raises. The feedback widget's options are its indices
  as reals, on which `float` is the identity.
- **Subscripting** is Python's: `xs[i]` accepts `-len(xs) <= i < len(xs)`,
  and negative indices count from the end.
- **Sentiment scores** are the `Sentiment` enumeration. The source compares the
  float scores only for equality, so the enumeration loses nothing.
- **Icons** are ASCII strings, standing for the UTF-8 bytes the source returns.
- **Collaborators passed in as parameters:** the widget registry's answer (the
  stored value and whether it changed), the four policy checks (one boolean
  each), `compute_widget_id`, `dedent`, and the undefined
  `get_mapped_options` / `create_format_func`.

`serialize` returns indices in the order the caller listed the values, not
in the options' order. `OptionsSelectorUtils.SerializeKeepsCallerOrder` pins
this: selecting `[c, a]` from `[a, b, c]` gives `[2, 0]`.

## Model

| member | source | states |
|---|---|---|
| OptionsSelectorUtils.NormalizeDefaults | lib/streamlit/elements/widgets/options_selector/options_selector_utils.py:89-111 | A `None` default, when `None` is an option, becomes the one-element list of an option that is `None`. A list, tuple, set or array-like becomes its items in order. A falsy scalar, or one that is itself an option, is wrapped whole. Any other scalar becomes what iterating it yields, and raises "not iterable" when it cannot be iterated. |
| OptionsSelectorUtils.CheckAndConvertToIndices | lib/streamlit/elements/widgets/options_selector/options_selector_utils.py:89-119 | A `None` default, when `None` is not an option, gives no indices. Otherwise the shape-normalised defaults either are all options and map to their first positions in the defaults' own order, or the result is an error naming the first missing default, with no partial result. |
| OptionsSelectorUtils.ResolveDefaults | lib/streamlit/elements/widgets/options_selector/options_selector_utils.py:112-119 | Succeeds exactly when every default is an option. On success there is one index per default and it is that default's first position. Otherwise the error names the first default that is not an option. |
| OptionsSelectorUtils.FirstMissing | lib/streamlit/elements/widgets/options_selector/options_selector_utils.py:112-117 | The membership loop finds nothing exactly when every default is an option. Otherwise it returns the earliest default that is not one. |
| OptionsSelectorUtils.IndicesOf | lib/streamlit/elements/widgets/options_selector/options_selector_utils.py:119 | Each default maps to the first position holding it, and the defaults keep their order. |
| PyModel.Index | lib/streamlit/elements/widgets/options_selector/options_selector_utils.py:119 | `opt.index(v)` is a position holding `v` with no earlier position holding it. |
| PyModel.NoneIndex | lib/streamlit/elements/widgets/options_selector/options_selector_utils.py:93-94 | When `None` is an option, `None` as a default selects the first option that is `None`. |
| OptionsSelectorUtils.OptionValueIsNotSplit | lib/streamlit/elements/widgets/options_selector/options_selector_utils.py:104-111 | A scalar default that is itself an option is never iterated, whether truthy or not, and it selects its first position. |
| OptionsSelectorUtils.StringDefaultIsSplit | lib/streamlit/elements/widgets/options_selector/options_selector_utils.py:104-109 | A non-empty string default that is not an option is split into its characters. The conversion succeeds exactly when every character is an option, with one first position per character. |
| OptionsSelectorUtils.FalsyDefaultIsWrapped | lib/streamlit/elements/widgets/options_selector/options_selector_utils.py:110-117 | A falsy default is looked up whole rather than iterated, so when it is not an option the error names that value. |
| OptionsSelectorUtils.ConvertExamples | lib/tests/streamlit/elements/options_selection/options_selector_utils_test.py:125-153 | The unit-test conversions: a `None` default over `["a"]` gives no indices; over `["a", "b"]`, `"a"` gives `[0]`, a container holding `"b"` gives `[1]` and `"c"` is rejected. An added example, not from the tests: a `None` default over `["a", None]` gives `[1]`. |
| OptionsSelectorUtils.Pick | lib/streamlit/elements/widgets/options_selector/options_selector_utils.py:86 | Reading options at indices succeeds exactly when every index is in Python's range, and gives the subscripted options in order. Otherwise the error names the first out-of-range index. |
| OptionsSelectorUtils.MultiSelectSerde.Serialize | lib/streamlit/elements/widgets/options_selector/options_selector_utils.py:74-76 | A `None` value, when `None` is not an option, serializes to the empty list. Any other value serializes exactly when its normalised form is made of options only, to the first positions of that form in its order; for a list that form is the list itself. A conversion error propagates unchanged. |
| OptionsSelectorUtils.MultiSelectSerde.Deserialize | lib/streamlit/elements/widgets/options_selector/options_selector_utils.py:78-86 | With no wire value the default indices are read. Each index yields the option Python's subscript gives, and an out-of-range index raises. A serde with no default indices reads "no wire value" as the empty list. |
| OptionsSelectorUtils.SerdeRoundTrip | lib/streamlit/elements/widgets/options_selector/options_selector_utils.py:74-86 | Deserializing the serialization of a list whose values are all options gives the same list back. |
| OptionsSelectorUtils.DeserializeRoundTrip | lib/streamlit/elements/widgets/options_selector/options_selector_utils.py:74-86 | When the options are distinct, serializing the values read at in-range indices gives those indices back. |
| OptionsSelectorUtils.SerializeKeepsCallerOrder | lib/streamlit/elements/widgets/options_selector/options_selector_utils.py:74-76 | Indices follow the caller's order, not the options' order: `[c, a]` over `[a, b, c]` gives `[2, 0]`. |
| OptionsSelectorUtils.GetDefaultCount | lib/streamlit/elements/widgets/options_selector/options_selector_utils.py:134-139 | The count is 0 for `None`, 1 for a value that cannot be iterated, and the number of items otherwise. |
| OptionsSelectorUtils.DefaultCountIsSelectionLength | lib/streamlit/elements/widgets/options_selector/options_selector_utils.py:201-215 | The limit is checked against the selection the proto receives: a selected list counts its length, which is the number of indices it serializes to. |
| OptionsSelectorUtils.DefaultCountIsNormalizedLength | lib/streamlit/elements/widgets/options_selector/options_selector_utils.py:96-111 | For every default other than `None`, a falsy iterable or an iterable option, the count is the length of the normalised default list. |
| OptionsSelectorUtils.DefaultCountDiffersFromConversion | lib/streamlit/elements/widgets/options_selector/options_selector_utils.py:96-111 | Where the count and the conversion part: `None` counts 0 but converts to one `None` option, `""` counts 0 but is wrapped as one option, and an option `"ab"` counts 2 but is looked up whole. |
| OptionsSelectorUtils.DefaultCountExamples | lib/tests/streamlit/elements/options_selection/options_selector_utils_test.py:36-48 | The unit-test counts: three, one and zero list items, a string, `None`, and a tuple of three. |
| OptionsSelectorUtils.ExceedsMax | lib/streamlit/elements/widgets/options_selector/options_selector_utils.py:202 | An absent or zero limit never rejects. Any other limit rejects exactly the counts above it, so a negative limit rejects every count and an accepted count never exceeds a positive limit. |
| OptionsSelectorUtils.Noun | lib/streamlit/elements/widgets/options_selector/options_selector_utils.py:123-124 | The noun is "option" exactly for the number 1, and "options" otherwise. |
| OptionsSelectorUtils.OverMaxOptionsMessage | lib/streamlit/elements/widgets/options_selector/options_selector_utils.py:122-131 | The newer message is the count clause, then the limit and the explanation broken over the newer lines, then the limit clause, with nothing else before, between or after. |
| OptionsSelectorUtils.MiddlePhrases | lib/streamlit/elements/widgets/options_selector/options_selector_utils.py:126-129 | The words between the count clause and the limit clause come in five phrases, cut wherever either copy of the message breaks a line: the limit's two halves and the three lines of the explanation. |
| OptionsSelectorUtils.NewerBreaks | lib/streamlit/elements/widgets/options_selector/options_selector_utils.py:126-129 | The newer copy ends a line after `max_selections`, after `default`, after "Note that" and after the explanation, with one space after the limit; every separator is a space or a line break. |
| OptionsSelectorUtils.FlattenIgnoresBreaks | lib/streamlit/elements/widgets/options_selector/options_selector_utils.py:126-129 | The same phrases joined by two choices of spaces and line breaks read the same once every line break is read as a space. |
| OptionsSelectorUtils.OverMaxMessagePluralisation | lib/streamlit/elements/widgets/options_selector/options_selector_utils.py:123-131 | The opening clause is the current count and its noun, and the closing clause is the limit and its noun. Each noun depends only on its own number. |
| OptionsSelectorUtils.SelectedClauseExamples | lib/tests/streamlit/elements/options_selection/options_selector_utils_test.py:68-122 | The opening clauses for the counts 3, 1 and 2 the unit tests use, singular exactly for 1. |
| OptionsSelectorUtils.LimitClauseExamples | lib/tests/streamlit/elements/options_selection/options_selector_utils_test.py:68-122 | The closing clauses for the limits 2, 1 and 0 the unit tests use, singular exactly for 1. |
| OptionsSelectorUtils.TransformOptions | lib/streamlit/elements/widgets/options_selector/options_selector_utils.py:158-171 | Succeeds exactly when the default converts, and otherwise propagates its error. The options come back as given. The labels are one per option, in order, from the format function or from `str` when none is given. The default indices are empty when the conversion gave none, and otherwise the first positions of the normalised defaults. |
| OptionsSelectorUtils.DefaultRoundTrip | lib/streamlit/elements/widgets/options_selector/options_selector_utils.py:158-171 | A serde built from the transformed options and default indices reads "no wire value" back as the normalised default, or as the empty list when there was none. |
| OptionsSelectorUtils.TransformExamples | lib/tests/streamlit/elements/options_selection/options_selector_utils_test.py:156-179 | The unit-test transformations: the prefixed labels with `"b"` selecting `[1]`, and `str` labels `"5"`, `"6"`, `"7"` with `7` selecting `[2]`. |
| OptionsSelectorUtils.RegisterWidgetAndEnqueue | lib/streamlit/elements/widgets/options_selector/options_selector_utils.py:174-221 | A count above a truthy limit raises the over-max exception with that count and limit. Otherwise the call succeeds exactly when the emission rule does, and returns the registry's answer unchanged with the proto the emission rule produced. |
| WidgetRuntime.FirstFailingPolicy | lib/streamlit/elements/widgets/options_selector/options_selector_utils.py:142-151 | The check that stops the call is the first failing one in source order: fragment path, cache replay, callback, session state. There is none exactly when all four pass. |
| WidgetRuntime.CheckPolicies | lib/streamlit/elements/widgets/options_selector/options_selector_utils.py:142-151 | The four checks run in source order: fragment path, cache replay, callback, session state. The first failing check is the one reported, each of the four included, and the call passes exactly when all four pass. |
| WidgetRuntime.ApplyOverride | lib/streamlit/elements/widgets/options_selector/options_selector_utils.py:213-215 | An unchanged value leaves the proto exactly as it was. A changed value writes the serialized indices and the "set" marker and touches nothing else. A serializer error aborts the call. |
| WidgetRuntime.OverrideIffChanged | lib/streamlit/elements/widgets/options_selector/options_selector_utils.py:213-215 | On a freshly built proto, the "set" marker is true exactly when the value changed, and an unchanged widget carries no override value. |
| Text.NatToStringRoundTrip | lib/streamlit/elements/widgets/options_selector/options_selector_utils.py:125-131 | Reading back the decimal numeral the messages print for a count gives the count again. |
| Text.IntToString | lib/streamlit/elements/widgets/options_selector/options_selector_utils.py:125-131 | An int in a message prints as a minus sign exactly when it is negative, followed by the digits of its magnitude with no leading zero; 0 prints as `"0"`. |
| MultiselectUtils.CheckAndConvertToIndices | lib/streamlit/elements/widgets/multiselect_utils.py:91-121 | Has the same contract as the newer conversion: no indices for a `None` default, first positions in the defaults' order, and the first missing default reported. |
| MultiselectUtils.SerdeNoneCases | lib/streamlit/elements/widgets/multiselect_utils.py:58-75 | When `None` is not an option, serializing `None` gives the empty list, and a serde with its default empty default indices reads "no wire value" as the empty list. |
| MultiselectUtils.OverMaxOptionsMessage | lib/streamlit/elements/widgets/multiselect_utils.py:78-88 | The older message opens and closes with the same count and limit clauses as the newer one, so each number is pluralised on its own; only the middle, the limit and the explanation, has its own line breaks. |
| MultiselectUtils.OlderBreaks | lib/streamlit/elements/widgets/multiselect_utils.py:82-86 | The older copy ends a line only after the limit and after the explanation, with spaces elsewhere; every separator is a space or a line break. |
| MultiselectUtils.OverMaxLayoutsDifferOnlyInLineBreaks | lib/streamlit/elements/widgets/multiselect_utils.py:78-88 | For every count and limit, the older and the newer over-max message are the same text once every line break is read as a space. |
| MultiselectUtils.TransformOptions | lib/streamlit/elements/widgets/multiselect_utils.py:145-156 | The labels map one to one onto the options through the format function. The default indices are empty when the conversion gave none, and otherwise are the normalised defaults' first positions. The call succeeds exactly when the conversion does. |
| MultiselectUtils.MaxOrZero | lib/streamlit/elements/widgets/multiselect_utils.py:183 | `max_selections or 0` is 0 exactly when the limit is absent or 0, and is the limit otherwise. |
| MultiselectUtils.BuildProto | lib/streamlit/elements/widgets/multiselect_utils.py:159-198 | Id, default indices, form and disabled flag are always set, and the options are the labels. A MultiSelect also gets label, placeholder, visibility, the limit or 0, and help, dedented and only when given. A ButtonGroup gets its click mode. The proto starts without an override. |
| MultiselectUtils.EmitSelection | lib/streamlit/elements/widgets/multiselect_utils.py:233-237 | With the index-list serde, the override is what the serde writes for the stored value (the first positions of its normalised form), written with the "set" marker exactly when the value changed; a changed value the serde cannot write raises, and the registry's answer is kept. |
| MultiselectUtils.RegisterWidgetAndEnqueue | lib/streamlit/elements/widgets/multiselect_utils.py:201-243 | Whatever value the registry holds is counted as `get_default_count` counts it, and a count above a truthy limit raises the over-max exception in the older layout. Otherwise the call fails only when a changed value is one the serde cannot write. On success the registry's answer is returned unchanged, and the proto receives what the serde writes for the value and the "set" marker exactly when the value changed. |
| FeedbackUtils.FeedbackSerde.Serialize | lib/streamlit/elements/widgets/options_selector/feedback_utils.py:43-46 | No score serializes to the empty list. A score serializes exactly when it is an option, to the one-element list of its first position. Otherwise the error names the score. |
| FeedbackUtils.FeedbackSerde.Deserialize | lib/streamlit/elements/widgets/options_selector/feedback_utils.py:48-54 | No wire value, or an empty one, reads as no score. Any out-of-range index raises. Otherwise the result is `float` of the option at the first index, and raises naming that option when `float` cannot convert it. |
| FeedbackUtils.FeedbackRoundTrip | lib/streamlit/elements/widgets/options_selector/feedback_utils.py:43-54 | No score comes back as no score. A score that is an option serializes, and reads back as its `float` value, or raises naming it when `float` cannot convert it. |
| FeedbackUtils.FloatOfReal | lib/streamlit/elements/widgets/options_selector/feedback_utils.py:54 | `float` of a real is that real. |
| FeedbackUtils.FloatOfInt | lib/streamlit/elements/widgets/options_selector/feedback_utils.py:54 | `float` of an int is a whole number whose floor is the int (exact for every int; see Left out). |
| FeedbackUtils.FloatFeedbackRoundTrip | lib/streamlit/elements/widgets/options_selector/feedback_utils.py:43-54 | Over real options, every offered score, and no score, comes back exactly. |
| FeedbackUtils.StringOptionCannotBeReadBack | lib/streamlit/elements/widgets/options_selector/feedback_utils.py:39-54 | A string option serializes, but reading it back raises because `float` rejects `"b"`. |
| PyModel.FloatOf | lib/streamlit/elements/widgets/options_selector/feedback_utils.py:54 | `float` converts an int exactly (see Left out), reads a string only when it is all decimal digits, and raises on `None`. |
| PyModel.FloatOfNumeral | lib/streamlit/elements/widgets/options_selector/feedback_utils.py:54 | `float` of the decimal numeral of a natural number is that number. |
| FeedbackUtils.FeedbackSerdeExamples | lib/tests/streamlit/elements/options_selection/feedback_utils_test.py:94-118 | Over the options 5, 6 and 7: 6 serializes to `[1]`, 8 is rejected, `[1]` reads back as 6.0, and `[3]` raises for index 3. |
| FeedbackUtils.FormatThumbs | lib/streamlit/elements/widgets/options_selector/feedback_utils.py:57-64 | Only the top and bottom levels get an icon, each a Material icon reference; the thumb-up icon is the top level's alone and the thumb-down icon the bottom level's alone. |
| FeedbackUtils.FormatSmiles | lib/streamlit/elements/widgets/options_selector/feedback_utils.py:67-80 | Each of the five levels gets its own Material face, from `sentiment_sad` for sad to `sentiment_very_satisfied` for very happy, and each face belongs to that level alone. The unknown score, which no style offers and on which the older `compare_float` would raise, gets no icon. |
| FeedbackUtils.FormatStars | lib/streamlit/elements/widgets/options_selector/feedback_utils.py:83-84 | Every score, a level or not, gets a Material icon reference; that it is the same star for every level is `FeedbackUtils.MappedOptionsHaveIcons`. |
| FeedbackUtils.GetMappedOptionsAndFormatFuncs | lib/streamlit/elements/widgets/options_selector/feedback_utils.py:87-112 | "smiles" and "stars" offer all five levels in strictly ascending order. Any other style offers the top level and then the bottom one. The icon table is faces for "smiles", stars for "stars" and thumbs otherwise. |
| FeedbackUtils.MappedOptionsHaveIcons | lib/streamlit/elements/widgets/options_selector/feedback_utils.py:57-84 | Every offered level gets a non-empty icon. Thumbs and faces give different levels different icons, and stars give every level the same icon. |
| ButtonGroup.BuildProto | lib/streamlit/elements/widgets/options_selector/button_group.py:63-85 | Id, default indices, form, disabled flag, click mode and selection visualisation are copied. The options are appended in input order, and the proto starts without an override. |
| ButtonGroup.BuildProtoIsSharedBuilder | lib/streamlit/elements/widgets/multiselect_utils.py:159-198 | The older shared builder, asked for a button group, builds the newer button group's proto with the given click mode and only the selection highlighted, whatever multiselect label, limit, placeholder or help it is handed. |
| ButtonGroup.ResolveSerializer | lib/streamlit/elements/widgets/options_selector/button_group.py:327-330 | The caller's serializer is kept only when both a serializer and a deserializer are given. Otherwise the index-list serde over the options and default indices serializes. |
| ButtonGroup.ButtonGroupCall | lib/streamlit/elements/widgets/options_selector/button_group.py:297-355 | A policy failure is reported before the options are looked at, and a transform error propagates. The id is computed from the transformed labels and default indices, which the proto also carries. The proto gets the serialized value and the "set" marker exactly when the value changed, and the registry's answer is returned unchanged. |
| ButtonGroup.ValidateFeedbackArg | lib/streamlit/elements/widgets/options_selector/button_group.py:202-207 | Any list is accepted. A style name is accepted exactly when it is "thumbs", "smiles" or "stars". Anything else is rejected with the message quoting the argument. |
| ButtonGroup.SelectionVisualizationFor | lib/streamlit/elements/widgets/options_selector/button_group.py:213-217 | The visualisation lights every star up to the selected one exactly for the "stars" style, and highlights only the selection otherwise. |
| ButtonGroup.AsFloats | lib/streamlit/elements/widgets/options_selector/button_group.py:208-211 | The feedback options are the option indices, one real per index in order, each with that index as its floor. |
| ButtonGroup.Feedback | lib/streamlit/elements/widgets/options_selector/button_group.py:202-231 | An invalid style is rejected before anything else. The call succeeds exactly when the style and policies pass and a changed score is one of the option indices. The widget is single-select with the style's visualisation and no default, the override is written exactly when the value changed and reads back through the feedback serde as the registry's value, which is returned unchanged. |
| ButtonGroup.FeedbackThumbsFirstRun | lib/tests/streamlit/elements/button_group_test.py:23-36 | A thumbs widget on a first run is accepted with no default and no override. It is single-select, highlights only the selection, keeps the disabled flag, and returns the registry's value. |
| LegacyButtonGroup.TrueIndices | lib/streamlit/elements/widgets/button_group.py:100-104 | With no default there are no indices. Otherwise a position is listed exactly when its flag is set, and the positions are strictly ascending. |
| LegacyButtonGroup.LegacyFeedbackSerde.Serialize | lib/streamlit/elements/widgets/button_group.py:69-70 | A score serializes exactly when it is an option, to the one-element list of its first position. Otherwise the error names the score. |
| LegacyButtonGroup.LegacyFeedbackSerde.Deserialize | lib/streamlit/elements/widgets/button_group.py:72-78 | No wire value, or an empty one, reads as the unknown score. Otherwise the result is the option at the first index, and any out-of-range index raises. |
| LegacyButtonGroup.LegacyFeedbackRoundTrip | lib/streamlit/elements/widgets/button_group.py:63-78 | Every offered score comes back unchanged from serializing then deserializing. |
| LegacyButtonGroup.UnknownMeansNoSelection | lib/streamlit/elements/widgets/button_group.py:72-78 | When the unknown score is not offered, reading back the unknown score means exactly that nothing was selected. |
| LegacyButtonGroup.FirstUnfilled | lib/streamlit/elements/widgets/button_group.py:264-280 | Nothing is returned exactly when every wanted name is present; otherwise the returned name is the first wanted one that is missing. |
| LegacyButtonGroup.Bind | lib/streamlit/elements/widgets/button_group.py:264-280 | Python's argument binding, in the interpreter's order. A call binds exactly when every keyword names a parameter the positional arguments left free, there are no more positional arguments than parameters, and every parameter without a default is given. A refused keyword comes first and is reported as unknown (it names no parameter) or as already filled by position. Too many positional arguments come next, and last a missing parameter without a default, which no keyword names. |
| LegacyButtonGroup.BindingChecksKeywordsFirst | lib/streamlit/elements/widgets/multiselect_utils.py:201-215 | Against the older registration's parameters, a call with no arguments is refused for the missing `dg`, and one with fourteen positional arguments and the keyword `deserializer` is refused for the keyword rather than for the extra argument. |
| LegacyButtonGroup.LegacyRegistrationCallRaises | lib/streamlit/elements/widgets/button_group.py:264-280 | The registration call as written, thirteen positional arguments plus `deserializer=` and `serializer=`, is refused for the unknown keyword `deserializer`, while the same call without the two keywords binds. |
| LegacyButtonGroup.MapClickMode | lib/streamlit/elements/widgets/button_group.py:244-248 | "radio" maps to radio and "checkbox" to checkbox, and every other name maps to a plain button. |
| LegacyButtonGroup.LegacyFeedbackSetup | lib/streamlit/elements/widgets/button_group.py:166-199 | Only "thumbs", "smiles" and "stars" are accepted, and anything else is rejected with the message quoting it. An accepted style gets the same levels and icon table as the newer helper chooses, and the radio click mode. |
| MultiSelect.MultiSelectProto | lib/streamlit/elements/widgets/options_selector/multiselect.py:224-239 | The proto carries the transformed default indices and labels in order, and the limit when it is truthy and 0 otherwise. Help is set, dedented, only when given. Label, placeholder, visibility, form and disabled flag are copied, and the proto starts without an override. |
| MultiSelect.MultiSelectProtoIsSharedBuilder | lib/streamlit/elements/widgets/options_selector/multiselect.py:224-239 | The newer multiselect builds the same proto as the older shared builder (multiselect_utils.py:159-198) does for a multiselect, with any click mode, since the click mode only reaches button groups. |
| MultiSelect.ContextAsSerializer | lib/streamlit/elements/widgets/options_selector/multiselect.py:241-255 | The script context in the serializer slot is not a function, so calling it raises. |
| MultiSelect.RegisterAsWritten | lib/streamlit/elements/widgets/options_selector/multiselect.py:241-255 | With the arguments bound by position as written, a stored value counted above the limit raises the over-max exception, and otherwise the call succeeds exactly when the value did not change, never writing an override. |
| MultiSelect.MisboundCallRejectsEveryChange | lib/streamlit/elements/widgets/options_selector/multiselect.py:241-255 | Every changed value within the limit that the serde can write raises as the call is written, while the keyword-bound registration writes what the serde gives for it with the "set" marker. |
| MultiSelect.Register | lib/streamlit/elements/widgets/options_selector/multiselect.py:209-255 | Whatever value the registry holds, a list or anything session state stored, is counted as `_get_default_count` counts it, and a count above a truthy limit raises the over-max exception. Otherwise the call fails only when a changed value is one the serde cannot write. On success the proto is the built MultiSelect proto, with what the serde writes for the value (the first positions of its normalised form) and the "set" marker written exactly when the value changed, and the registry's answer is returned unchanged. |
| MultiSelect.StoredStringCountsCharacters | lib/streamlit/elements/widgets/options_selector/options_selector_utils.py:201-205 | A stored string `"ab"` under a limit of 1 is counted by its two characters and rejected, changed or not, although the one-element list `["ab"]` is within the limit. |
| MultiSelect.Multiselect | lib/streamlit/elements/widgets/options_selector/multiselect.py:200-207 | A policy failure is reported before the options are transformed, a transform error propagates, and only then are the id, proto and registration computed. |

## Left out

- Hashing, the widget registry and session state are not modelled. `compute_widget_id` and the registry's answer are parameters, and the registry's stored value is taken as given.
- The four policy checks are one boolean each in `PolicyGate`, and their order is modelled. What each check inspects is not.
- `maybe_raise_label_warnings`, called at `options_selector/multiselect.py:205`, lives in `type_util.py`, which is not part of this model. `LabelVisibility` holds only the three accepted values, so an invalid visibility cannot reach it; what it does with an empty label is not modelled.
- Deserializers are not applied. They are only handed to the registry, so the model keeps just whether a caller gave one.
- `ensure_indexable`, `check_python_comparable` and `is_type` inspect numpy and pandas types. The options are a `seq<T>` with equality instead, and array-likes are a `ContainerArg`.
- `maybe_coerce_enum` and `maybe_coerce_enum_sequence` are taken to be the identity. So are the undefined `maybe_coerce` and `check_max_selections`; the latter is called with no limit, so it would check nothing.
- `get_mapped_options` and `create_format_func` are imported by the newer button group but not defined by the feedback module. They are parameters of `ButtonGroup.Feedback`. The test expectations that target them are not modelled.
- Float scores and `compare_float` are the `Sentiment` enumeration in the icon tables and the older button group. Icons are strings rather than bytes.
- Protobuf classes are the `WidgetProto` record. Enqueueing, `save_for_app_testing`, `gather_metrics`, the script-run context, `to_key` and `dedent` are I/O or foreign calls: `dedent` is a parameter, and the others leave no trace.
- The older button group's `_button_group` is modelled only up to its registration call, which raises on every call (see Findings). The older `button_group` and `feedback` reach only that call. `LegacyButtonGroup.TrueIndices` and `LegacyButtonGroup.LegacyFeedbackSetup` model what they do before it.
- The older `button_group` hands the ascending indices of its `True` flags to `_button_group` as default values, not indices. This is not modelled further because that call raises anyway.
- MultiSelect.Register: models the registration with the keyword binding evidently intended, the index-list serde over the options and default indices, as the older copy has it. As written, `_multiselect` passes its arguments after `indexable_options` by position into the newer `register_widget_and_enqueue`, which binds `deserializer` to the default indices, `serializer` to the script context and `ctx` to `on_change`; every changed value then calls the context and raises `TypeError`. `MultiSelect.RegisterAsWritten` models that call (see Findings).
- MultiSelect.RegisterAsWritten: as written, the registry also receives the default indices (a list) as its deserializer and `on_change` as its context. The model assumes the registry answers anyway, so the unchanged case succeeds only under that assumption.
- LegacyButtonGroup.Bind: reports only the first missing parameter, where Python names them all. Keyword-only and positional-only parameters, `*args` and `**kwargs`, and repeated keywords, which Python rejects when compiling the call, are not modelled.
- PyModel.FloatOf: reads only strings of decimal digits; signs, decimal points, exponents, whitespace, `inf` and `nan` are not modelled. It converts every int exactly, whereas Python's `float` rounds ints beyond 2**53 to the nearest double and raises `OverflowError` beyond the double range; option values that large are not modelled.
- FeedbackUtils.FloatOfInt: converts every int exactly, without the rounding beyond 2**53 and the `OverflowError` beyond the double range that Python's `float` has. It is used for the unit tests' options 5, 6 and 7, far inside the exact range.
- The too-many-selections exception carries its count, limit and layout rather than the rendered text; `OptionsSelectorUtils.OverMaxOptionsMessage` and `MultiselectUtils.OverMaxOptionsMessage` give that text.
- The newer feedback widget's options are reals, the indices as floats; Python's `float` score equals the int index it came from, which the model shows through `ButtonGroup.AsFloats`.
- The newer `feedback` rejection message lists 'faces' although the accepted literal is "smiles". `ButtonGroup.FeedbackOptionMessage` keeps the message as written.
- The invalid-default error keeps the offending value, not the rendered message text.
- The returned value of the registration functions is the registry's whole answer. The source returns its `value` field.
- `lib/streamlit/commands/pages.py` (page switching), `lib/streamlit/components/v1/components.py` (a re-export) and the browser tests are not part of this model.

## Findings

| source | as written | input that shows it | evidently intended | confidence | as-written member | corrected member |
|---|---|---|---|---|---|---|
| lib/streamlit/elements/widgets/options_selector/multiselect.py:241-255 | the arguments after `indexable_options` are passed by position, so `register_widget_and_enqueue` gets the default indices as `deserializer`, the script context as `serializer` and `on_change` as `ctx` | any user change within the limit, e.g. selecting `"a"` from `["a", "b"]`: the changed value is handed to `serializer`, the context, which is not callable | the index-list serde over the options and default indices serializes the selection to its first positions | high, not executed | MultiSelect.RegisterAsWritten, MultiSelect.MisboundCallRejectsEveryChange | MultiSelect.Register |
| lib/streamlit/elements/widgets/button_group.py:264-280 | `_button_group` passes thirteen arguments by position and then `deserializer=` and `serializer=`, which the older thirteen-parameter `register_widget_and_enqueue` (multiselect_utils.py:201-215) does not have | any call of the older `button_group` or `feedback`: Python refuses the keyword `deserializer` when binding the arguments and raises `TypeError` | the caller's serializer and deserializer reach the registry, falling back to the index-list serde, as the newer copy of `_button_group` does | high, not executed | LegacyButtonGroup.Bind, LegacyButtonGroup.LegacyRegistrationCallRaises | ButtonGroup.ButtonGroupCall |

=== FILE: button_group.dfy ===
/** The newer button group (`options_selector/button_group.py`): the proto
    builder, the generic `_button_group` call, and `feedback`, which validates
    its style argument, picks the selection visualisation and runs a
    single-select button group with the feedback serde. */
module ButtonGroup {
  import opened Results
  import opened PyModel
  import opened WidgetRuntime
  import OSU = OptionsSelectorUtils
  import FB = FeedbackUtils
  import MU = MultiselectUtils

  /** `_build_proto`: every argument lands in its own field, the options in
      the order given, with no override yet. */
  function BuildProto<L>(
    widgetId: string,
    formatted: seq<L>,
    defaults: seq<int>,
    disabled: bool,
    formId: string,
    clickMode: ClickMode,
    selectionVisualization: SelectionVisualization
  ): (p: WidgetProto<L>)
    ensures p.id == widgetId && p.default == defaults && p.formId == formId && p.disabled == disabled
    ensures |p.options| == |formatted| && forall k :: 0 <= k < |formatted| ==> p.options[k] == formatted[k]
    ensures p.fields == ButtonGroupFields(clickMode, selectionVisualization)
    ensures Fresh(p)
  {
    WidgetProto(widgetId, defaults, formId, disabled, formatted, [], false,
                ButtonGroupFields(clickMode, selectionVisualization))
  }

  /** With the older copy's shared builder a button group always shows only
      the selected option; otherwise it builds the same proto as this one,
      and none of the multiselect's label, limit or help reaches it. */
  lemma BuildProtoIsSharedBuilder<L>(
    widgetId: string, formatted: seq<L>, defaults: seq<int>, disabled: bool, formId: string,
    clickMode: ClickMode, labelText: string, labelVisibility: LabelVisibility,
    maxSelections: Option<int>, placeholder: string, help: Option<string>, dedent: string -> string)
    ensures MU.BuildProto(MU.ButtonGroupClass, widgetId, formatted, defaults, disabled, formId, labelText,
                          labelVisibility, maxSelections, placeholder, help, clickMode, dedent)
         == BuildProto(widgetId, formatted, defaults, disabled, formId, clickMode, OnlySelected)
  {
  }

  /** The serializer a button group registers. When the caller gives both a
      serializer and a deserializer the caller's serializer is kept; when
      either is missing both are replaced by the index-list serde over the
      options and default indices, which reads the registry value through
      `shape`. Deserializers only go to the registry, so only whether one was
      given matters here. */
  function ResolveSerializer<T(==), V(!new)>(
    serializer: Option<V -> Result<seq<int>, SelectorError<T>>>,
    deserializerGiven: bool,
    fallback: OSU.MultiSelectSerde<T>,
    shape: V -> ArgShape<T>
  ): (ser: V -> Result<seq<int>, SelectorError<T>>)
    ensures serializer.Some? && deserializerGiven ==> ser == serializer.value
    ensures !(serializer.Some? && deserializerGiven) ==> forall v :: ser(v) == fallback.Serialize(shape(v))
  {
    if serializer.Some? && deserializerGiven then serializer.value
    else (v: V) => fallback.Serialize(shape(v))
  }

  /** The caller-facing arguments of `_button_group`. */
  datatype ButtonGroupArgs<!T, !V, L> = ButtonGroupArgs(
    options: seq<T>,
    key: Option<string>,
    default: ArgShape<T>,
    clickMode: ClickMode,
    disabled: bool,
    format: Option<T -> L>,
    serializer: Option<V -> Result<seq<int>, SelectorError<T>>>,
    deserializerGiven: bool,
    selectionVisualization: SelectionVisualization)

  /** The serializer `_button_group` ends up with for these arguments. */
  function SerializerFor<T(==), V(!new), L>(
    args: ButtonGroupArgs<T, V, L>, isNone: T -> bool, t: OSU.Transformed<T, L>, shape: V -> ArgShape<T>
  ): V -> Result<seq<int>, SelectorError<T>> {
    ResolveSerializer(args.serializer, args.deserializerGiven,
                      OSU.MultiSelectSerde(t.indexable, t.defaults, isNone), shape)
  }

  /** `_button_group`, from the policy check to the returned registry answer.
      The policies are checked first, then the options are transformed, and
      the id is computed from the transformed labels and default indices; the
      proto carries them, and receives the serialized value exactly when the
      registry reports a change. `widgetId` stands for `compute_widget_id`,
      `str` for Python's `str`, `shape` for how the fallback serde sees a
      registry value, and `state` for the registry's answer. */
  function ButtonGroupCall<T(==), V(!new), L>(
    env: WidgetEnv,
    args: ButtonGroupArgs<T, V, L>,
    isNone: T -> bool,
    str: T -> L,
    shape: V -> ArgShape<T>,
    widgetId: IdInputs<L> -> string,
    state: WidgetState<V>
  ): (r: Result<Emitted<V, L>, SelectorError<T>>)
    ensures CheckPolicies<T>(env.gate).Err? ==> r == Err(CheckPolicies<T>(env.gate).error)
    ensures CheckPolicies<T>(env.gate).Ok? ==>
      var t := OSU.TransformOptions(args.options, isNone, args.default, args.format, str);
      && (t.Err? ==> r == Err(t.error))
      && (t.Ok? ==> (r.Ok? <==> !state.valueChanged || SerializerFor(args, isNone, t.value, shape)(state.value).Ok?))
      && (t.Ok? && r.Ok? ==>
            var p := r.value.proto;
            && r.value.state == state
            && p.id == widgetId(ButtonGroupId(args.key, t.value.formatted, t.value.defaults, args.disabled,
                                              args.selectionVisualization, env.page))
            && p.options == t.value.formatted
            && p.default == t.value.defaults
            && p.formId == env.formId
            && p.disabled == args.disabled
            && p.fields == ButtonGroupFields(args.clickMode, args.selectionVisualization)
            && (p.setValue <==> state.valueChanged)
            && (state.valueChanged ==> p.value == SerializerFor(args, isNone, t.value, shape)(state.value).value)
            && (!state.valueChanged ==> p.value == []))
  {
    var _ :- CheckPolicies<T>(env.gate);
    var t :- OSU.TransformOptions(args.options, isNone, args.default, args.format, str);
    var id := widgetId(ButtonGroupId(args.key, t.formatted, t.defaults, args.disabled,
                                     args.selectionVisualization, env.page));
    var proto := BuildProto(id, t.formatted, t.defaults, args.disabled, env.formId,
                            args.clickMode, args.selectionVisualization);
    var ser := SerializerFor(args, isNone, t, shape);
    var emitted :- ApplyOverride(proto, state, ser);
    Ok(Emitted(emitted, state))
  }

  /** The `options` argument of `feedback`: a list, or a style name. */
  datatype FeedbackArg = OptionList(items: seq<int>) | Literal(name: string)

  /** The three style names `feedback` accepts. */
  predicate IsFeedbackStyle(name: string) {
    name == "thumbs" || name == "smiles" || name == "stars"
  }

  /** The rejection message, which names the faces style by its documented
      name although the accepted literal is "smiles". */
  function FeedbackOptionMessage(name: string): string {
    "The options argument to st.feedback must be one of ['thumbs', 'faces', 'stars']. "
    + "The argument passed was '" + name + "'."
  }

  /** `feedback`'s argument check: any list passes, and a name passes exactly
      when it is one of the three styles; anything else is rejected with a
      message quoting the argument. */
  function ValidateFeedbackArg(options: FeedbackArg): (r: Result<(), SelectorError<real>>)
    ensures r.Ok? <==> options.OptionList? || IsFeedbackStyle(options.name)
    ensures r.Err? ==> r.error == InvalidFeedbackOption(FeedbackOptionMessage(options.name))
  {
    if options.OptionList? || IsFeedbackStyle(options.name) then Ok(())
    else Err(InvalidFeedbackOption(FeedbackOptionMessage(options.name)))
  }

  /** Stars light up every star up to the selected one; every other style
      highlights only the selection. */
  function SelectionVisualizationFor(options: FeedbackArg): (v: SelectionVisualization)
    ensures v == AllUpToSelected <==> options == Literal("stars")
  {
    if options == Literal("stars") then AllUpToSelected else OnlySelected
  }

  /** `feedback`'s option indices as the floats the feedback serde reads back.
      Python compares an int and a float holding the same number as equal, so
      the serde finds the same positions either way. */
  function AsFloats(indices: seq<int>): (xs: seq<real>)
    ensures |xs| == |indices|
    ensures forall k :: 0 <= k < |indices| ==> xs[k] == indices[k] as real && xs[k].Floor == indices[k]
  {
    seq(|indices|, k requires 0 <= k < |indices| => indices[k] as real)
  }

  /** `feedback`'s option indices are never Python `None`. */
  predicate NoFloatIsNone(x: real) {
    false
  }

  /** How the index-list serde reads a feedback value; only used when no
      serializer is given, which `feedback` never does. */
  function FeedbackShape(v: Option<real>): ArgShape<real> {
    if v.None? then NoneArg else ListArg([v.value])
  }

  /** The feedback serde over the option indices. */
  function FeedbackSerdeFor(indices: seq<int>): FB.FeedbackSerde<real> {
    FB.FeedbackSerde(AsFloats(indices), NoFloatIsNone, FB.FloatOfReal)
  }

  /** The button-group arguments `feedback` builds: its option indices, no
      default, single-select, the icon function, and the feedback serde. */
  function FeedbackArgs<L>(
    options: FeedbackArg, key: Option<string>, disabled: bool, indices: seq<int>, format: int -> L
  ): ButtonGroupArgs<real, Option<real>, L> {
    var serde := FeedbackSerdeFor(indices);
    ButtonGroupArgs(AsFloats(indices), key, NoneArg, SingleSelect, disabled, Some((x: real) => format(x.Floor)),
                    Some((v: Option<real>) => serde.Serialize(v)), true, SelectionVisualizationFor(options))
  }

  /** `feedback`: the argument is validated before anything else; the widget is
      a single-select button group over the option indices with the feedback
      serde and the style's visualisation, and the call returns the registry's
      value, which the feedback serde's `deserialize` produces as a float.
      `mapped` stands for `get_mapped_options` and `createFormat` for
      `create_format_func`, neither of which the module defines. */
  function Feedback<L>(
    env: WidgetEnv,
    options: FeedbackArg,
    key: Option<string>,
    disabled: bool,
    mapped: FeedbackArg -> (seq<L>, seq<int>),
    createFormat: seq<L> -> (int -> L),
    str: real -> L,
    widgetId: IdInputs<L> -> string,
    state: WidgetState<Option<real>>
  ): (r: Result<Emitted<Option<real>, L>, SelectorError<real>>)
    ensures ValidateFeedbackArg(options).Err? ==> r == Err(ValidateFeedbackArg(options).error)
    ensures r.Ok? <==>
      && ValidateFeedbackArg(options).Ok?
      && CheckPolicies<real>(env.gate).Ok?
      && (state.valueChanged && state.value.Some? ==> state.value.value in AsFloats(mapped(options).1))
    ensures r.Ok? ==> r.value.state == state
    ensures r.Ok? ==> r.value.proto.fields == ButtonGroupFields(SingleSelect, SelectionVisualizationFor(options))
    ensures r.Ok? ==> r.value.proto.default == [] && r.value.proto.disabled == disabled
    ensures r.Ok? ==> (r.value.proto.setValue <==> state.valueChanged)
    ensures r.Ok? && state.valueChanged ==>
      FeedbackSerdeFor(mapped(options).1).Deserialize(Some(r.value.proto.value)) == Ok(state.value)
  {
    var _ :- ValidateFeedbackArg(options);
    var (labels, indices) := mapped(options);
    var args := FeedbackArgs(options, key, disabled, indices, createFormat(labels));
    var shape := FeedbackShape;
    assert OSU.TransformOptions(AsFloats(indices), NoFloatIsNone, NoneArg, args.format, str).Ok? by {
      assert !NoneIn(AsFloats(indices), NoFloatIsNone);
      assert OSU.ConvertContract(AsFloats(indices), NoFloatIsNone, NoneArg,
                                 OSU.CheckAndConvertToIndices(AsFloats(indices), NoFloatIsNone, NoneArg));
    }
    var r := ButtonGroupCall(env, args, NoFloatIsNone, str, shape, widgetId, state);
    if state.valueChanged && (state.value.Some? ==> state.value.value in AsFloats(indices)) then
      FB.FloatFeedbackRoundTrip(AsFloats(indices), NoFloatIsNone, state.value);
      r
    else
      r
  }

  /** A thumbs widget on a first run: it is accepted, its proto has no default
      and no override, highlights only the selection, is single-select, and
      the call returns the registry's value unchanged. */
  lemma FeedbackThumbsFirstRun<L>(
    env: WidgetEnv,
    key: Option<string>,
    disabled: bool,
    mapped: FeedbackArg -> (seq<L>, seq<int>),
    createFormat: seq<L> -> (int -> L),
    str: real -> L,
    widgetId: IdInputs<L> -> string,
    state: WidgetState<Option<real>>
  )
    requires env.gate == PolicyGate(true, true, true, true)
    requires !state.valueChanged
    ensures var r := Feedback(env, Literal("thumbs"), key, disabled, mapped, createFormat, str, widgetId, state);
      && r.Ok?
      && r.value.proto.default == []
      && !r.value.proto.setValue
      && r.value.proto.disabled == disabled
      && r.value.proto.fields == ButtonGroupFields(SingleSelect, OnlySelected)
      && r.value.state.value == state.value
  {
    var r := Feedback(env, Literal("thumbs"), key, disabled, mapped, createFormat, str, widgetId, state);
    assert ValidateFeedbackArg(Literal("thumbs")).Ok?;
    assert r.Ok?;
  }
}

=== FILE: feedback_utils.dfy ===
/** The feedback widget's helpers: the sentiment levels, a serde for a single
    optional score built on the index-list serde, the three icon tables and
    the choice of levels and icon table for each feedback style. */
module FeedbackUtils {
  import opened Results
  import opened PyModel
  import opened WidgetRuntime
  import OSU = OptionsSelectorUtils
  import opened Text

  /** `SentimentScores`: the unknown score (Python `None`) and the five levels
      0, 0.25, 0.5, 0.75 and 1. Scores are compared only for equality, so the
      floats become enumeration members. */
  datatype Sentiment = Unknown | Sad | Disappointed | Neutral | Happy | VeryHappy

  /** Four times a level's score, which orders the levels. */
  function Quarters(s: Sentiment): nat
    requires s != Unknown
  {
    match s
    case Sad => 0
    case Disappointed => 1
    case Neutral => 2
    case Happy => 3
    case VeryHappy => 4
  }

  /** `FeedbackSerde`: one optional option, carried on the wire as an index
      list of length at most one, through an index-list serde over the same
      options with no default indices. Reading a value back applies Python's
      `float` to the option found; `toFloat` is that conversion, absent where
      `float` raises. */
  datatype FeedbackSerde<!T(==)> = FeedbackSerde(options: seq<T>, isNone: T -> bool, toFloat: T -> Option<real>)
  {
    function Inner(): OSU.MultiSelectSerde<T> {
      OSU.MultiSelectSerde(options, [], isNone)
    }

    /** `serialize`: no score is the empty list; a score is the one-element
        list of its first position, or an invalid-value error when it is not
        an option. */
    function Serialize(value: Option<T>): (r: Result<seq<nat>, SelectorError<T>>)
      ensures value.None? ==> r == Ok([])
      ensures value.Some? ==> (r.Ok? <==> value.value in options)
      ensures value.Some? && r.Ok? ==> |r.value| == 1 && IsFirstIndex(options, value.value, r.value[0])
      ensures value.Some? && r.Err? ==> r.error == InvalidDefault(value.value)
    {
      if value.None? then Ok([])
      else
        var r := Inner().Serialize(ListArg([value.value]));
        assert r.Err? ==> OSU.FirstMissingAt(options, [value.value], 0);
        r
    }

    /** `deserialize`: the float value of the option at the first index sent,
        or no score when nothing (or the empty list) was sent. An index outside
        the options raises, and so does an option `float` cannot convert. */
    function Deserialize(uiValue: Option<seq<int>>): (r: Result<Option<real>, SelectorError<T>>)
      ensures uiValue.None? ==> r == Ok(None)
      ensures uiValue.Some? && (exists k :: 0 <= k < |uiValue.value| && !InRange(|options|, uiValue.value[k])) ==>
        r.Err? && r.error.IndexOutOfRange?
      ensures uiValue.Some? && (forall k :: 0 <= k < |uiValue.value| ==> InRange(|options|, uiValue.value[k])) ==>
        && (uiValue.value == [] ==> r == Ok(None))
        && (uiValue.value != [] ==>
              var option := Subscript(options, uiValue.value[0]);
              && (toFloat(option).Some? ==> r == Ok(Some(toFloat(option).value)))
              && (toFloat(option).None? ==> r == Err(NotANumber(option))))
    {
      var picked :- Inner().Deserialize(uiValue);
      if |picked| == 0 then Ok(None)
      else
        match toFloat(picked[0])
        case None => Err(NotANumber(picked[0]))
        case Some(x) => Ok(Some(x))
    }
  }

  /** A score that is an option (or no score) survives serializing, and
      deserializing gives back `float` of that option; an option `float`
      rejects is serialized but cannot be read back. */
  lemma FeedbackRoundTrip<T>(serde: FeedbackSerde<T>, v: Option<T>)
    requires v.Some? ==> v.value in serde.options
    ensures serde.Serialize(v).Ok?
    ensures v.None? ==> serde.Deserialize(Some(serde.Serialize(v).value)) == Ok(None)
    ensures v.Some? && serde.toFloat(v.value).Some? ==>
      serde.Deserialize(Some(serde.Serialize(v).value)) == Ok(Some(serde.toFloat(v.value).value))
    ensures v.Some? && serde.toFloat(v.value).None? ==>
      serde.Deserialize(Some(serde.Serialize(v).value)) == Err(NotANumber(v.value))
  {
    var ix := serde.Serialize(v).value;
    if v.Some? {
      assert InRange(|serde.options|, ix[0]);
      assert serde.options[ix[0]] == v.value;
    }
  }

  /** `float` on a float: the value itself. */
  function FloatOfReal(x: real): (r: Option<real>)
    ensures r == Some(x)
  {
    Some(x)
  }

  /** `float` on an int: the same number as a float. */
  function FloatOfInt(i: int): (r: Option<real>)
    ensures r.Some? && r.value.Floor == i && r.value == r.value.Floor as real
  {
    Some(i as real)
  }

  /** Over float options, as `feedback` uses it, the serde is an exact round
      trip: a score that is an option comes back as the same score. */
  lemma FloatFeedbackRoundTrip(options: seq<real>, isNone: real -> bool, v: Option<real>)
    requires v.Some? ==> v.value in options
    ensures FeedbackSerde(options, isNone, FloatOfReal).Serialize(v).Ok?
    ensures var serde := FeedbackSerde(options, isNone, FloatOfReal);
      serde.Deserialize(Some(serde.Serialize(v).value)) == Ok(v)
  {
    FeedbackRoundTrip(FeedbackSerde(options, isNone, FloatOfReal), v);
  }

  /** The serde of the unit tests: the options 5, 6 and 7, none of them `None`. */
  function TestSerde(): FeedbackSerde<int> {
    FeedbackSerde([5, 6, 7], (x: int) => false, FloatOfInt)
  }

  /** The values pinned by the unit tests: the index found for 6 is 1, and
      reading 1 back gives the float 6.0. */
  lemma FeedbackSerdeExamples()
    ensures TestSerde().Serialize(Some(6)) == Ok([1])
    ensures TestSerde().Serialize(Some(8)).Err?
    ensures TestSerde().Deserialize(Some([1])) == Ok(Some(6.0))
    ensures TestSerde().Deserialize(Some([3])) == Err(IndexOutOfRange(3))
  {
    var r := TestSerde().Serialize(Some(6));
    assert 6 in TestSerde().options;
    assert r.Ok?;
    assert IsFirstIndex([5, 6, 7], 6, 1);
    FirstIndexUnique([5, 6, 7], 6, 1, r.value[0]);
    assert r.value == [1];
    assert OSU.Pick([5, 6, 7], [3]) == Err(IndexOutOfRange(3));
  }

  /** String options are accepted on the way out, but `float` rejects a
      string that is not a number, so reading such a selection back raises. */
  lemma StringOptionCannotBeReadBack()
    ensures var serde := FeedbackSerde([PyStr("a"), PyStr("b")], IsPyNone, FloatOf);
      && serde.Serialize(Some(PyStr("b"))) == Ok([1])
      && serde.Deserialize(Some([1])) == Err(NotANumber(PyStr("b")))
  {
    var serde := FeedbackSerde([PyStr("a"), PyStr("b")], IsPyNone, FloatOf);
    var r := serde.Serialize(Some(PyStr("b")));
    assert PyStr("b") in serde.options;
    assert r.Ok?;
    assert IsFirstIndex([PyStr("a"), PyStr("b")], PyStr("b"), 1);
    FirstIndexUnique([PyStr("a"), PyStr("b")], PyStr("b"), 1, r.value[0]);
    assert r.value == [1];
    assert "b"[0] == 'b' && !IsDigit('b');
    assert !AllDigits("b");
  }

  /** The icon tables, as ASCII text for the UTF-8 bytes the source returns. */
  datatype FormatKind = Thumbs | Smiles | Stars

  /** A Material icon reference as the button labels spell it:
      `:material/<name>:` with a non-empty name. */
  predicate IsMaterialIcon(icon: string) {
    |icon| > 11 && icon[..10] == ":material/" && icon[|icon| - 1] == ':'
  }

  /** `format_func_thumbs`: up for the top level, down for the bottom one, and
      no icon for the three levels between. */
  function FormatThumbs(s: Sentiment): (icon: string)
    ensures icon != "" <==> s == VeryHappy || s == Sad
    ensures icon != "" ==> IsMaterialIcon(icon)
    ensures icon == ":material/thumb_up:" <==> s == VeryHappy
    ensures icon == ":material/thumb_down:" <==> s == Sad
  {
    if s == VeryHappy then ":material/thumb_up:"
    else if s == Sad then ":material/thumb_down:"
    else ""
  }

  /** `format_func_smiles`: one face per level, from sad to very satisfied,
      and none for the unknown score, which no style offers. */
  function FormatSmiles(s: Sentiment): (icon: string)
    ensures icon != "" <==> s != Unknown
    ensures icon != "" ==> IsMaterialIcon(icon)
    ensures icon == ":material/sentiment_sad:" <==> s == Sad
    ensures icon == ":material/sentiment_dissatisfied:" <==> s == Disappointed
    ensures icon == ":material/sentiment_neutral:" <==> s == Neutral
    ensures icon == ":material/sentiment_satisfied:" <==> s == Happy
    ensures icon == ":material/sentiment_very_satisfied:" <==> s == VeryHappy
  {
    match s
    case Sad => ":material/sentiment_sad:"
    case Disappointed => ":material/sentiment_dissatisfied:"
    case Neutral => ":material/sentiment_neutral:"
    case Happy => ":material/sentiment_satisfied:"
    case VeryHappy => ":material/sentiment_very_satisfied:"
    case Unknown => ""
  }

  /** `format_func_stars`: the same star for every level, the unknown score
      included. */
  function FormatStars(s: Sentiment): (icon: string)
    ensures IsMaterialIcon(icon)
  {
    ":material/star_rate:"
  }

  function Format(kind: FormatKind, s: Sentiment): string {
    match kind
    case Thumbs => FormatThumbs(s)
    case Smiles => FormatSmiles(s)
    case Stars => FormatStars(s)
  }

  /** `get_mapped_options_and_format_funcs`: "smiles" and "stars" offer all
      five levels from lowest to highest, anything else offers the top level
      first and then the bottom one; the icon table follows the style, with
      thumbs for anything that is neither "smiles" nor "stars". */
  function GetMappedOptionsAndFormatFuncs(option: string): (r: (seq<Sentiment>, FormatKind))
    ensures forall k :: 0 <= k < |r.0| ==> r.0[k] != Unknown
    ensures option == "smiles" || option == "stars" ==>
      && |r.0| == 5
      && (forall i, j :: 0 <= i < j < |r.0| ==> Quarters(r.0[i]) < Quarters(r.0[j]))
      && (forall s :: s != Unknown ==> s in r.0)
    ensures !(option == "smiles" || option == "stars") ==>
      |r.0| == 2 && Quarters(r.0[0]) == 4 && Quarters(r.0[1]) == 0
    ensures r.1 == Smiles <==> option == "smiles"
    ensures r.1 == Stars <==> option == "stars"
  {
    var mapped :=
      if option == "smiles" || option == "stars" then [Sad, Disappointed, Neutral, Happy, VeryHappy]
      else [VeryHappy, Sad];
    assert forall s :: s != Unknown ==> s in [Sad, Disappointed, Neutral, Happy, VeryHappy] by {
      forall s | s != Unknown ensures s in [Sad, Disappointed, Neutral, Happy, VeryHappy] {
        assert s == [Sad, Disappointed, Neutral, Happy, VeryHappy][Quarters(s)];
      }
    }
    var kind :=
      if option == "smiles" then Smiles
      else if option == "stars" then Stars
      else Thumbs;
    (mapped, kind)
  }

  /** Every offered level gets an icon; with thumbs and faces the icons tell
      the levels apart, with stars every level shows the same icon. */
  lemma MappedOptionsHaveIcons(option: string)
    ensures var (mapped, kind) := GetMappedOptionsAndFormatFuncs(option);
      && (forall k :: 0 <= k < |mapped| ==> Format(kind, mapped[k]) != "")
      && (kind != Stars ==>
            forall i, j :: 0 <= i < j < |mapped| ==> Format(kind, mapped[i]) != Format(kind, mapped[j]))
      && (kind == Stars ==>
            forall i, j :: 0 <= i < j < |mapped| ==> Format(kind, mapped[i]) == Format(kind, mapped[j]))
  {
  }
}

=== FILE: legacy_button_group.dfy ===
/** The older button group (`widgets/button_group.py`): the boolean default
    list, its own feedback serde with an explicit unknown score, the click-mode
    names, and the feedback style tables and check. */
module LegacyButtonGroup {
  import opened Results
  import opened PyModel
  import opened WidgetRuntime
  import OSU = OptionsSelectorUtils
  import FB = FeedbackUtils

  /** `button_group`'s default: the positions whose flag is set, in ascending
      order, and none when no default is given. */
  method TrueIndices(default: Option<seq<bool>>) returns (r: seq<nat>)
    ensures default.None? ==> r == []
    ensures default.Some? ==> forall i :: i in r <==> 0 <= i < |default.value| && default.value[i]
    ensures forall a, b :: 0 <= a < b < |r| ==> r[a] < r[b]
  {
    r := [];
    if default.None? {
      return;
    }
    var flags := default.value;
    var i := 0;
    while i < |flags|
      invariant 0 <= i <= |flags|
      invariant forall j :: j in r <==> 0 <= j < i && flags[j]
      invariant forall a, b :: 0 <= a < b < |r| ==> r[a] < r[b]
      invariant forall a :: 0 <= a < |r| ==> r[a] < i
    {
      if flags[i] {
        r := r + [i];
      }
      i := i + 1;
    }
  }

  /** The older scores have no `None`: no selection is the unknown score. */
  predicate NoSentimentIsNone(s: FB.Sentiment) {
    false
  }

  /** The older `FeedbackSerde`: one score, carried as a one-element index
      list; an empty selection reads back as the unknown score. */
  datatype LegacyFeedbackSerde = LegacyFeedbackSerde(options: seq<FB.Sentiment>)
  {
    function Inner(): OSU.MultiSelectSerde<FB.Sentiment> {
      OSU.MultiSelectSerde(options, [], NoSentimentIsNone)
    }

    /** `serialize`: the one-element list of the score's first position, or an
        invalid-value error when the score is not an option. */
    function Serialize(value: FB.Sentiment): (r: Result<seq<nat>, SelectorError<FB.Sentiment>>)
      ensures r.Ok? <==> value in options
      ensures r.Ok? ==> |r.value| == 1 && IsFirstIndex(options, value, r.value[0])
      ensures r.Err? ==> r.error == InvalidDefault(value)
    {
      var r := Inner().Serialize(ListArg([value]));
      assert r.Err? ==> OSU.FirstMissingAt(options, [value], 0);
      r
    }

    /** `deserialize`: the option at the first index sent, or the unknown score
        when nothing (or the empty list) was sent. */
    function Deserialize(uiValue: Option<seq<int>>): (r: Result<FB.Sentiment, SelectorError<FB.Sentiment>>)
      ensures uiValue.None? ==> r == Ok(FB.Unknown)
      ensures uiValue.Some? ==>
        (r.Ok? <==> forall k :: 0 <= k < |uiValue.value| ==> InRange(|options|, uiValue.value[k]))
      ensures r.Ok? && uiValue.Some? && uiValue.value == [] ==> r.value == FB.Unknown
      ensures r.Ok? && uiValue.Some? && uiValue.value != [] ==> r.value == Subscript(options, uiValue.value[0])
    {
      var picked :- Inner().Deserialize(uiValue);
      if |picked| == 0 then Ok(FB.Unknown) else Ok(picked[0])
    }
  }

  /** Every offered score survives serializing and deserializing. */
  lemma LegacyFeedbackRoundTrip(serde: LegacyFeedbackSerde, v: FB.Sentiment)
    requires v in serde.options
    ensures serde.Serialize(v).Ok?
    ensures serde.Deserialize(Some(serde.Serialize(v).value)) == Ok(v)
  {
    var ix := serde.Serialize(v).value;
    assert InRange(|serde.options|, ix[0]);
    assert serde.options[ix[0]] == v;
  }

  /** When the unknown score is not offered, reading back the unknown score
      means exactly that nothing was selected. */
  lemma UnknownMeansNoSelection(serde: LegacyFeedbackSerde, ix: seq<int>)
    requires FB.Unknown !in serde.options
    requires serde.Deserialize(Some(ix)).Ok?
    ensures serde.Deserialize(Some(ix)).value == FB.Unknown <==> ix == []
  {
    if ix != [] {
      var i := ix[0];
      assert InRange(|serde.options|, i);
      if i >= 0 {
        assert serde.options[i] in serde.options;
      } else {
        assert serde.options[|serde.options| + i] in serde.options;
      }
    }
  }

  /** `click_mode` names: "radio" and "checkbox" select their modes, anything
      else is a plain button. */
  function MapClickMode(name: string): (m: ClickMode)
    ensures m == Radio <==> name == "radio"
    ensures m == Checkbox <==> name == "checkbox"
    ensures m == Button <==> name != "radio" && name != "checkbox"
  {
    if name == "radio" then Radio
    else if name == "checkbox" then Checkbox
    else Button
  }

  /** What the older `feedback` hands to its button group. */
  datatype LegacyFeedback = LegacyFeedback(options: seq<FB.Sentiment>, format: FB.FormatKind, clickMode: ClickMode)

  /** The older rejection message, which lists the accepted literals. */
  function LegacyFeedbackMessage(name: string): string {
    "The options argument to st.feedback must be one of ['thumbs', 'smiles', 'stars']. "
    + "The argument passed was '" + name + "'."
  }

  /** The older `feedback` up to its button-group call: a style other than
      "thumbs", "smiles" and "stars" is rejected; for the three styles the
      scores and icon table are the ones the newer helper chooses, and the
      click mode is radio. */
  function LegacyFeedbackSetup(name: string): (r: Result<LegacyFeedback, SelectorError<FB.Sentiment>>)
    ensures r.Ok? <==> name == "thumbs" || name == "smiles" || name == "stars"
    ensures r.Err? ==> r.error == InvalidFeedbackOption(LegacyFeedbackMessage(name))
    ensures r.Ok? ==> (r.value.options, r.value.format) == FB.GetMappedOptionsAndFormatFuncs(name)
    ensures r.Ok? ==> r.value.clickMode == Radio
  {
    var scores :=
      if name == "smiles" || name == "stars" then [FB.Sad, FB.Disappointed, FB.Neutral, FB.Happy, FB.VeryHappy]
      else [FB.VeryHappy, FB.Sad];
    if name == "thumbs" then Ok(LegacyFeedback(scores, FB.Thumbs, MapClickMode("radio")))
    else if name == "smiles" then Ok(LegacyFeedback(scores, FB.Smiles, MapClickMode("radio")))
    else if name == "stars" then Ok(LegacyFeedback(scores, FB.Stars, MapClickMode("radio")))
    else Err(InvalidFeedbackOption(LegacyFeedbackMessage(name)))
  }

  /** The parameters of the older `register_widget_and_enqueue`, in order. */
  function OlderRegisterParameters(): seq<string> {
    ["dg", "widget_name", "proto", "widget_id", "options", "indexable_options", "default_options",
     "ctx", "on_change_handler", "args", "kwargs", "max_selections", "app_testing_value"]
  }

  /** How many of those parameters have no default: `dg` up to `default_options`. */
  function OlderRegisterRequired(): (n: nat)
    ensures n <= |OlderRegisterParameters()|
  {
    7
  }

  /** Why Python refuses to bind a call's arguments to a function's
      parameters; either way the call raises `TypeError` before its body runs. */
  datatype BindingError =
    | UnexpectedKeyword(name: string)
    | MultipleValues(name: string)
    | TooManyPositional
    | MissingRequired(name: string)

  /** The first of `wanted` that is not among `have`. */
  function FirstUnfilled(have: seq<string>, wanted: seq<string>): (bad: Option<string>)
    ensures bad.None? <==> forall k :: 0 <= k < |wanted| ==> wanted[k] in have
    ensures bad.Some? ==> exists k :: 0 <= k < |wanted| && wanted[k] == bad.value && bad.value !in have
                                     && forall j :: 0 <= j < k ==> wanted[j] in have
  {
    if wanted == [] then None
    else if wanted[0] !in have then Some(wanted[0])
    else
      var bad := FirstUnfilled(have, wanted[1..]);
      assert forall j :: 1 <= j < |wanted| ==> wanted[j] == wanted[1..][j - 1];
      bad
  }

  /** How many parameters the positional arguments fill. */
  function Filled(params: seq<string>, positional: nat): (n: nat)
    ensures n <= |params| && n <= positional
    ensures n == positional || n == |params|
  {
    if positional <= |params| then positional else |params|
  }

  /** Python's binding of a call with `positional` arguments by position and
      the given (distinct) keywords to `params`, of which the first `required`
      have no default. The checks come in the interpreter's order: first every
      keyword must name a parameter the positional arguments left free, then
      there may be no more positional arguments than parameters, and last
      every parameter without a default must have been given. */
  function Bind(params: seq<string>, required: nat, positional: nat, keywords: seq<string>): (e: Option<BindingError>)
    requires required <= |params|
    ensures e.None? <==>
      && (forall k :: 0 <= k < |keywords| ==> keywords[k] in params[Filled(params, positional)..])
      && positional <= |params|
      && (forall j :: positional <= j < required ==> params[j] in keywords)
    ensures (exists k :: 0 <= k < |keywords| && keywords[k] !in params[Filled(params, positional)..]) ==>
      e.Some? && (e.value.UnexpectedKeyword? || e.value.MultipleValues?)
    ensures e == Some(TooManyPositional) <==>
      (forall k :: 0 <= k < |keywords| ==> keywords[k] in params[Filled(params, positional)..]) && positional > |params|
    ensures e.Some? && e.value.UnexpectedKeyword? ==> e.value.name in keywords && e.value.name !in params
    ensures e.Some? && e.value.MultipleValues? ==> e.value.name in keywords && e.value.name in params[..Filled(params, positional)]
    ensures e.Some? && e.value.MissingRequired? ==>
      e.value.name !in keywords && exists j :: positional <= j < required && params[j] == e.value.name
  {
    var filled := Filled(params, positional);
    match FirstUnfilled(params[filled..], keywords)
    case Some(name) =>
      if name !in params then Some(UnexpectedKeyword(name))
      else
        assert params == params[..filled] + params[filled..];
        Some(MultipleValues(name))
    case None =>
      if positional > |params| then Some(TooManyPositional)
      else if positional >= required then None
      else
        var needed := params[positional..required];
        assert forall j :: positional <= j < required ==> params[j] == needed[j - positional];
        match FirstUnfilled(keywords, needed)
        case None => None
        case Some(name) => Some(MissingRequired(name))
  }

  /** `_button_group`'s registration call as written: thirteen arguments by
      position, then `deserializer=` and `serializer=`, which the older
      thirteen-parameter registration does not have. The call raises whatever
      the values, while the same call without those two keywords binds. */
  lemma LegacyRegistrationCallRaises()
    ensures Bind(OlderRegisterParameters(), OlderRegisterRequired(), 13, ["deserializer", "serializer"])
         == Some(UnexpectedKeyword("deserializer"))
    ensures Bind(OlderRegisterParameters(), OlderRegisterRequired(), 13, []) == None
  {
    assert "deserializer" !in OlderRegisterParameters()[13..];
  }

  /** The order of the checks shows: a call with nothing is refused for its
      first parameter without a default, and one with a positional argument
      too many and an unknown keyword is refused for the keyword. */
  lemma BindingChecksKeywordsFirst()
    ensures Bind(OlderRegisterParameters(), OlderRegisterRequired(), 0, []) == Some(MissingRequired("dg"))
    ensures Bind(OlderRegisterParameters(), OlderRegisterRequired(), 14, ["deserializer"])
         == Some(UnexpectedKeyword("deserializer"))
  {
  }
}

=== FILE: multiselect.dfy ===
/** `_multiselect`: the policy check, the option transformation, the id, the
    MultiSelect proto and the registration with the limit check and the
    emission rule. */
module MultiSelect {
  import opened Results
  import opened PyModel
  import opened WidgetRuntime
  import OSU = OptionsSelectorUtils
  import MU = MultiselectUtils

  /** The MultiSelect proto `_multiselect` fills in: the transformed defaults
      and labels, the limit (0 for none), and the help text dedented and only
      when given. */
  function MultiSelectProto<L>(
    widgetId: string,
    formatted: seq<L>,
    defaults: seq<int>,
    formId: string,
    disabled: bool,
    labelText: string,
    maxSelections: Option<int>,
    placeholder: string,
    labelVisibility: LabelVisibility,
    help: Option<string>,
    dedent: string -> string
  ): (p: WidgetProto<L>)
    ensures p.id == widgetId && p.formId == formId && p.disabled == disabled
    ensures p.default == defaults && p.options == formatted
    ensures Fresh(p)
    ensures p.fields.MultiSelectFields?
    ensures p.fields.labelText == labelText && p.fields.placeholder == placeholder
    ensures p.fields.labelVisibility == labelVisibility
    ensures p.fields.maxSelections == 0 <==> !(maxSelections.Some? && maxSelections.value != 0)
    ensures p.fields.maxSelections != 0 ==> p.fields.maxSelections == maxSelections.value
    ensures p.fields.help.Some? <==> help.Some?
    ensures help.Some? ==> p.fields.help.value == dedent(help.value)
  {
    WidgetProto(widgetId, defaults, formId, disabled, formatted, [], false,
                MultiSelectFields(labelText, MU.MaxOrZero(maxSelections), placeholder, labelVisibility,
                                  if help.Some? then Some(dedent(help.value)) else None))
  }

  /** The newer element builds the same proto as the older copy's shared
      builder does for a multiselect, whatever click mode that builder is
      handed: the click mode only reaches button groups. */
  lemma MultiSelectProtoIsSharedBuilder<L>(
    widgetId: string, formatted: seq<L>, defaults: seq<int>, formId: string, disabled: bool,
    labelText: string, maxSelections: Option<int>, placeholder: string,
    labelVisibility: LabelVisibility, help: Option<string>, clickMode: ClickMode, dedent: string -> string)
    ensures MultiSelectProto(widgetId, formatted, defaults, formId, disabled, labelText, maxSelections,
                             placeholder, labelVisibility, help, dedent)
         == MU.BuildProto(MU.MultiSelectClass, widgetId, formatted, defaults, disabled, formId, labelText,
                          labelVisibility, maxSelections, placeholder, help, clickMode, dedent)
  {
  }

  /** The caller-facing arguments of `_multiselect`; the format function is
      `str` unless the caller gives one. */
  datatype MultiselectArgs<!T, L> = MultiselectArgs(
    labelText: string,
    options: seq<T>,
    default: ArgShape<T>,
    format: T -> L,
    key: Option<string>,
    help: Option<string>,
    maxSelections: Option<int>,
    placeholder: string,
    disabled: bool,
    labelVisibility: LabelVisibility)

  /** The id inputs `_multiselect` hashes. */
  function IdFor<T, L>(env: WidgetEnv, args: MultiselectArgs<T, L>, t: OSU.Transformed<T, L>): IdInputs<L> {
    MultiSelectId(args.labelText, t.formatted, t.defaults, args.key, args.help, args.maxSelections,
                  args.placeholder, env.formId, env.page)
  }

  /** `_multiselect` after its options are transformed: the id, the proto,
      the registration with the limit check and the emission rule, with the
      index-list serde over the options and default indices. The registry's
      value can be anything session state holds; `shape` is how Python's
      dispatch sees it. */
  function Register<T(==), V, L>(
    env: WidgetEnv,
    args: MultiselectArgs<T, L>,
    t: OSU.Transformed<T, L>,
    isNone: T -> bool,
    dedent: string -> string,
    widgetId: IdInputs<L> -> string,
    shape: V -> ArgShape<T>,
    state: WidgetState<V>
  ): (r: Result<Emitted<V, L>, SelectorError<T>>)
    requires t.indexable == args.options
    ensures var count := OSU.GetDefaultCount(shape(state.value));
      OSU.ExceedsMax(count, args.maxSelections) ==> r == Err(OverMaxSelections(count, args.maxSelections.value, NewerLayout))
    ensures !OSU.ExceedsMax(OSU.GetDefaultCount(shape(state.value)), args.maxSelections) ==>
      (r.Ok? <==> !state.valueChanged || OSU.Serializable(args.options, isNone, shape(state.value)))
    ensures r.Ok? ==>
      var p := r.value.proto;
      && r.value.state == state
      && p == MultiSelectProto(widgetId(IdFor(env, args, t)), t.formatted, t.defaults, env.formId, args.disabled,
                               args.labelText, args.maxSelections, args.placeholder, args.labelVisibility,
                               args.help, dedent).(value := p.value, setValue := p.setValue)
      && (p.setValue <==> state.valueChanged)
      && (state.valueChanged ==> OSU.SerializedAs(args.options, isNone, shape(state.value), p.value))
      && (!state.valueChanged ==> p.value == [])
  {
    var proto := MultiSelectProto(widgetId(IdFor(env, args, t)), t.formatted, t.defaults, env.formId, args.disabled,
                                  args.labelText, args.maxSelections, args.placeholder, args.labelVisibility,
                                  args.help, dedent);
    var serde := OSU.MultiSelectSerde(t.indexable, t.defaults, isNone);
    var serialize := (v: V) => serde.Serialize(shape(v));
    assert serialize(state.value) == serde.Serialize(shape(state.value));
    OSU.RegisterWidgetAndEnqueue(proto, serialize, shape, state, args.maxSelections)
  }

  /** What `register_widget_and_enqueue` receives as its serializer when the
      arguments after `indexable_options` are passed by position: the script
      context, which is not a function, so calling it raises. */
  function ContextAsSerializer<T, V>(value: V): (r: Result<seq<int>, SelectorError<T>>)
    ensures r.Err? && r.error.NotCallable?
  {
    Err(NotCallable("ctx"))
  }

  /** `_multiselect`'s registration as the call is written: the default
      indices land in the deserializer slot, the script context in the
      serializer slot and `on_change` in the context slot. The limit check
      and the proto are as in `Register`; a changed value reaches the
      serializer and raises. */
  function RegisterAsWritten<T(==), V, L>(
    env: WidgetEnv,
    args: MultiselectArgs<T, L>,
    t: OSU.Transformed<T, L>,
    dedent: string -> string,
    widgetId: IdInputs<L> -> string,
    shape: V -> ArgShape<T>,
    state: WidgetState<V>
  ): (r: Result<Emitted<V, L>, SelectorError<T>>)
    ensures var count := OSU.GetDefaultCount(shape(state.value));
      OSU.ExceedsMax(count, args.maxSelections) ==> r == Err(OverMaxSelections(count, args.maxSelections.value, NewerLayout))
    ensures !OSU.ExceedsMax(OSU.GetDefaultCount(shape(state.value)), args.maxSelections) ==> (r.Ok? <==> !state.valueChanged)
    ensures r.Ok? ==> r.value.state == state && !r.value.proto.setValue
  {
    var proto := MultiSelectProto(widgetId(IdFor(env, args, t)), t.formatted, t.defaults, env.formId, args.disabled,
                                  args.labelText, args.maxSelections, args.placeholder, args.labelVisibility,
                                  args.help, dedent);
    OSU.RegisterWidgetAndEnqueue(proto, ContextAsSerializer, shape, state, args.maxSelections)
  }

  /** Every user change within the limit is lost as the call is written: the
      registration raises where the keyword-bound registration writes the
      selection's indices into the proto. */
  lemma MisboundCallRejectsEveryChange<T, V, L>(
    env: WidgetEnv,
    args: MultiselectArgs<T, L>,
    t: OSU.Transformed<T, L>,
    isNone: T -> bool,
    dedent: string -> string,
    widgetId: IdInputs<L> -> string,
    shape: V -> ArgShape<T>,
    state: WidgetState<V>
  )
    requires t.indexable == args.options
    requires state.valueChanged
    requires !OSU.ExceedsMax(OSU.GetDefaultCount(shape(state.value)), args.maxSelections)
    requires OSU.Serializable(args.options, isNone, shape(state.value))
    ensures RegisterAsWritten(env, args, t, dedent, widgetId, shape, state) == Err(NotCallable("ctx"))
    ensures var r := Register(env, args, t, isNone, dedent, widgetId, shape, state);
      r.Ok? && r.value.proto.setValue && OSU.SerializedAs(args.options, isNone, shape(state.value), r.value.proto.value)
  {
  }

  /** `_multiselect`, from the policy check to the returned registry answer.
      The policies are checked before the options are transformed; the id and
      the proto carry the transformed labels and default indices; a stored
      value counted above a truthy limit is rejected; and the proto receives
      what the serde writes for the value exactly when the registry reports a
      change. The returned value is the registry's. */
  function Multiselect<T(==), V, L>(
    env: WidgetEnv,
    args: MultiselectArgs<T, L>,
    isNone: T -> bool,
    dedent: string -> string,
    widgetId: IdInputs<L> -> string,
    shape: V -> ArgShape<T>,
    state: WidgetState<V>
  ): (r: Result<Emitted<V, L>, SelectorError<T>>)
    ensures CheckPolicies<T>(env.gate).Err? ==> r == Err(CheckPolicies<T>(env.gate).error)
    ensures CheckPolicies<T>(env.gate).Ok? ==>
      var t := OSU.TransformOptions(args.options, isNone, args.default, Some(args.format), args.format);
      && (t.Err? ==> r == Err(t.error))
      && (t.Ok? ==> r == Register(env, args, t.value, isNone, dedent, widgetId, shape, state))
  {
    var _ :- CheckPolicies<T>(env.gate);
    var t :- OSU.TransformOptions(args.options, isNone, args.default, Some(args.format), args.format);
    Register(env, args, t, isNone, dedent, widgetId, shape, state)
  }

  /** A stored string that is itself an option, `"ab"` under a limit of 1:
      Python counts its two characters and rejects it, although as a
      one-element list selection it would pass. */
  lemma StoredStringCountsCharacters(env: WidgetEnv, args: MultiselectArgs<Value, string>, t: OSU.Transformed<Value, string>,
                                     dedent: string -> string, widgetId: IdInputs<string> -> string, changed: bool)
    requires t.indexable == args.options && args.maxSelections == Some(1)
    ensures Register(env, args, t, IsPyNone, dedent, widgetId, ShapeOf, WidgetState(PyStr("ab"), changed))
      == Err(OverMaxSelections(2, 1, NewerLayout))
    ensures !OSU.ExceedsMax(OSU.GetDefaultCount(ListArg([PyStr("ab")])), args.maxSelections)
  {
  }
}

=== FILE: multiselect_utils.dfy ===
/** The older copy of the option-selector utilities. Its conversion, count and
    serde are the same code as the newer module's and are reused from there;
    what differs is the message layout, `transform_options` taking a format
    function that defaults to `str`, the shared proto builder, and registration
    building its own index-list serde. */
module MultiselectUtils {
  import opened Results
  import opened PyModel
  import opened WidgetRuntime
  import OSU = OptionsSelectorUtils

  /** `check_and_convert_to_indices`: the same contract as the newer copy. */
  function CheckAndConvertToIndices<T(==)>(opt: seq<T>, isNone: T -> bool, d: ArgShape<T>): (r: Result<Option<seq<nat>>, SelectorError<T>>)
    ensures OSU.ConvertContract(opt, isNone, d, r)
  {
    OSU.CheckAndConvertToIndices(opt, isNone, d)
  }

  /** With no default the serde's indices are empty: serializing `None` (when
      it is not an option) gives `[]`, and a serde built with its default
      `default_value` deserializes "nothing sent" to the empty list. */
  lemma SerdeNoneCases<T>(options: seq<T>, isNone: T -> bool)
    requires !NoneIn(options, isNone)
    ensures OSU.MultiSelectSerde(options, [], isNone).Serialize(NoneArg) == Ok([])
    ensures OSU.MultiSelectSerde(options, [], isNone).Deserialize(None) == Ok([])
  {
  }

  /** Where the older copy breaks the middle: only after the limit and at the
      end, so that the explanation sits on a line of its own. */
  function OlderBreaks(): (seps: string)
    ensures |seps| == 5 && forall i :: 0 <= i < 5 ==> OSU.IsBreak(seps[i])
  {
    " \n  \n"
  }

  /** The middle sentences in the older layout: the limit on the first line,
      then the explanation. */
  function LimitExplanation(maxSelections: int): string {
    OSU.Interleave(OSU.MiddlePhrases(maxSelections), OlderBreaks())
  }

  /** `_get_over_max_options_message`, with the older line layout: the same
      opening and closing clauses as the newer message around this layout's
      middle sentences. */
  function OverMaxOptionsMessage(current: int, maxSelections: int): (m: string)
    ensures OSU.SplitsInto(m, OSU.SelectedClause(current), LimitExplanation(maxSelections), OSU.LimitClause(maxSelections))
  {
    OSU.ConcatEnds(OSU.SelectedClause(current), LimitExplanation(maxSelections), OSU.LimitClause(maxSelections));
    OSU.SelectedClause(current) + LimitExplanation(maxSelections) + OSU.LimitClause(maxSelections)
  }

  /** Read as one line, the older and the newer message are the same text. */
  lemma OverMaxLayoutsDifferOnlyInLineBreaks(current: int, maxSelections: int)
    ensures OSU.Flatten(OverMaxOptionsMessage(current, maxSelections))
         == OSU.Flatten(OSU.OverMaxOptionsMessage(current, maxSelections))
  {
    var head, tail := OSU.SelectedClause(current), OSU.LimitClause(maxSelections);
    var older, newer := LimitExplanation(maxSelections), OSU.LimitExplanation(maxSelections);
    OSU.FlattenIgnoresBreaks(OSU.MiddlePhrases(maxSelections), OlderBreaks(), OSU.NewerBreaks());
    OSU.FlattenConcat(head + older, tail);
    OSU.FlattenConcat(head + newer, tail);
    OSU.FlattenConcat(head, older);
    OSU.FlattenConcat(head, newer);
  }

  /** `transform_options`, whose format function defaults to `str` at the call
      site: one label per option, in order, and the default indices (empty for
      no default). */
  function TransformOptions<T(==), L>(options: seq<T>, isNone: T -> bool, default: ArgShape<T>, format: T -> L): (r: Result<OSU.Transformed<T, L>, SelectorError<T>>)
    ensures r.Ok? <==> CheckAndConvertToIndices(options, isNone, default).Ok?
    ensures r.Ok? ==> r.value.indexable == options && |r.value.formatted| == |options|
    ensures r.Ok? ==> forall k :: 0 <= k < |options| ==> r.value.formatted[k] == format(options[k])
    ensures r.Ok? && default.NoneArg? && !NoneIn(options, isNone) ==> r.value.defaults == []
    ensures r.Ok? && !(default.NoneArg? && !NoneIn(options, isNone)) ==>
      OSU.IndicesFor(options, OSU.NormalizeDefaults(options, isNone, default).value, r.value.defaults)
  {
    OSU.TransformOptions(options, isNone, default, Some(format), format)
  }

  /** The two proto classes `build_proto` can fill in. */
  datatype ProtoClass = MultiSelectClass | ButtonGroupClass

  /** `max_selections or 0`. */
  function MaxOrZero(maxSelections: Option<int>): (n: int)
    ensures n == 0 <==> !(maxSelections.Some? && maxSelections.value != 0)
    ensures n != 0 ==> n == maxSelections.value
  {
    if maxSelections.Some? && maxSelections.value != 0 then maxSelections.value else 0
  }

  /** `build_proto`: the shared fields are always set; a MultiSelect also gets
      its label, limit (0 for none), placeholder, visibility and, only when
      given, its dedented help; a ButtonGroup gets its click mode. `dedent` is
      the text-wrapping library function, left opaque. */
  function BuildProto<L>(
    protoClass: ProtoClass,
    widgetId: string,
    formatted: seq<L>,
    defaults: seq<int>,
    disabled: bool,
    formId: string,
    labelText: string,
    labelVisibility: LabelVisibility,
    maxSelections: Option<int>,
    placeholder: string,
    help: Option<string>,
    clickMode: ClickMode,
    dedent: string -> string
  ): (p: WidgetProto<L>)
    ensures p.id == widgetId && p.default == defaults && p.formId == formId && p.disabled == disabled
    ensures p.options == formatted
    ensures Fresh(p)
    ensures protoClass == MultiSelectClass ==>
      && p.fields.MultiSelectFields?
      && p.fields.labelText == labelText
      && p.fields.placeholder == placeholder
      && p.fields.labelVisibility == labelVisibility
      && p.fields.maxSelections == MaxOrZero(maxSelections)
      && (p.fields.help.Some? <==> help.Some?)
      && (help.Some? ==> p.fields.help.value == dedent(help.value))
    ensures protoClass == ButtonGroupClass ==> p.fields == ButtonGroupFields(clickMode, OnlySelected)
  {
    var fields :=
      if protoClass == MultiSelectClass then
        MultiSelectFields(labelText, MaxOrZero(maxSelections), placeholder, labelVisibility,
                          if help.Some? then Some(dedent(help.value)) else None)
      else
        ButtonGroupFields(clickMode, OnlySelected);
    WidgetProto(widgetId, defaults, formId, disabled, formatted, [], false, fields)
  }

  /** The emission step of `register_widget_and_enqueue` under the index-list
      serde: the override is what the serde writes for the stored value,
      written exactly when the value changed; a changed value the serde
      cannot write raises. `shape` is how Python's dispatch sees the stored
      value, which session state can set to anything. */
  function EmitSelection<T(==), V, L>(
    proto: WidgetProto<L>,
    indexable: seq<T>,
    isNone: T -> bool,
    defaultOptions: seq<int>,
    shape: V -> ArgShape<T>,
    state: WidgetState<V>
  ): (r: Result<Emitted<V, L>, SelectorError<T>>)
    ensures r.Ok? <==> !state.valueChanged || OSU.Serializable(indexable, isNone, shape(state.value))
    ensures r.Ok? ==> r.value.state == state
    ensures r.Ok? && !state.valueChanged ==> r.value.proto == proto
    ensures r.Ok? && state.valueChanged ==>
      && r.value.proto == proto.(value := r.value.proto.value, setValue := true)
      && OSU.SerializedAs(indexable, isNone, shape(state.value), r.value.proto.value)
  {
    var serde := OSU.MultiSelectSerde(indexable, defaultOptions, isNone);
    var serialize := (v: V) => serde.Serialize(shape(v));
    assert serialize(state.value) == serde.Serialize(shape(state.value));
    var emitted :- ApplyOverride(proto, state, serialize);
    Ok(Emitted(emitted, state))
  }

  /** `register_widget_and_enqueue`, from the registry's answer on: the serde
      is the index-list serde over the options and default indices, the count
      is taken of whatever value the registry holds, the limit is enforced,
      and the override (what the serde writes for that value) is written
      exactly when the value changed. */
  function RegisterWidgetAndEnqueue<T(==), V, L>(
    proto: WidgetProto<L>,
    indexable: seq<T>,
    isNone: T -> bool,
    defaultOptions: seq<int>,
    shape: V -> ArgShape<T>,
    state: WidgetState<V>,
    maxSelections: Option<int>
  ): (r: Result<Emitted<V, L>, SelectorError<T>>)
    ensures var count := OSU.GetDefaultCount(shape(state.value));
      OSU.ExceedsMax(count, maxSelections) ==> r == Err(OverMaxSelections(count, maxSelections.value, OlderLayout))
    ensures r.Ok? ==> r.value.state == state
    ensures r.Ok? && !state.valueChanged ==> r.value.proto == proto
    ensures r.Ok? && state.valueChanged ==>
      && r.value.proto == proto.(value := r.value.proto.value, setValue := true)
      && OSU.SerializedAs(indexable, isNone, shape(state.value), r.value.proto.value)
    ensures !OSU.ExceedsMax(OSU.GetDefaultCount(shape(state.value)), maxSelections) ==>
      (r.Ok? <==> !state.valueChanged || OSU.Serializable(indexable, isNone, shape(state.value)))
  {
    var count := OSU.GetDefaultCount(shape(state.value));
    if OSU.ExceedsMax(count, maxSelections) then
      Err(OverMaxSelections(count, maxSelections.value, OlderLayout))
    else
      EmitSelection(proto, indexable, isNone, defaultOptions, shape, state)
  }
}

=== FILE: options_selector_utils.dfy ===
/** The newer option-selector utilities: turning a caller's default into
    option indices, the index-list serde, the max-selections rule, option
    formatting, and registration with the emission rule. */
module OptionsSelectorUtils {
  import opened Results
  import opened Text
  import opened PyModel
  import opened WidgetRuntime

  // ---------------------------------------------------------------------------
  // Default values to indices
  // ---------------------------------------------------------------------------

  /** The shape dispatch on a default: a list is kept; a tuple, set or array-like
      is listed in iteration order; a truthy value that is not itself an option
      is iterated (a string becomes its characters, a non-iterable raises);
      anything else, including falsy values and values that are options,
      becomes a one-element list. `None` only gets here when it is an option. */
  function NormalizeDefaults<T(==)>(opt: seq<T>, isNone: T -> bool, d: ArgShape<T>): (r: Result<seq<T>, SelectorError<T>>)
    requires d.NoneArg? ==> NoneIn(opt, isNone)
    ensures d.NoneArg? ==> r.Ok? && |r.value| == 1 && r.value[0] in opt && isNone(r.value[0])
    ensures d.ListArg? || d.ContainerArg? ==> r == Ok(d.items)
    ensures d.ScalarArg? && (!d.truthy || d.v in opt) ==> r == Ok([d.v])
    ensures d.ScalarArg? && d.truthy && d.v !in opt ==>
      (r.Ok? <==> d.elems.Some?) && (r.Ok? ==> r.value == d.elems.value)
    ensures r.Err? ==> d.ScalarArg? && r.error == NotIterable(d.v)
  {
    match d
    case NoneArg => Ok([opt[NoneIndex(opt, isNone)]])
    case ListArg(items) => Ok(items)
    case ContainerArg(items) => Ok(items)
    case ScalarArg(v, truthy, elems) =>
      if truthy && v !in opt then
        (if elems.Some? then Ok(elems.value) else Err(NotIterable(v)))
      else
        Ok([v])
  }

  /** Position `k` holds the first of `vs` that is not an option. */
  predicate FirstMissingAt<T(==)>(opt: seq<T>, vs: seq<T>, k: int) {
    0 <= k < |vs| && vs[k] !in opt && forall j :: 0 <= j < k ==> vs[j] in opt
  }

  /** `ix` lists, for each of `vs` in turn, the position `opt.index` gives it. */
  predicate IndicesFor<T(==)>(opt: seq<T>, vs: seq<T>, ix: seq<int>) {
    |ix| == |vs| && forall k :: 0 <= k < |vs| ==> IsFirstIndex(opt, vs[k], ix[k])
  }

  /** The index list for given defaults is determined by them. */
  lemma IndicesForUnique<T>(opt: seq<T>, vs: seq<T>, a: seq<int>, b: seq<int>)
    requires IndicesFor(opt, vs, a) && IndicesFor(opt, vs, b)
    ensures a == b
  {
    forall k | 0 <= k < |vs| ensures a[k] == b[k] {
      FirstIndexUnique(opt, vs[k], a[k], b[k]);
    }
  }

  /** The membership loop: the first default that is not an option, if any. */
  function FirstMissing<T(==)>(opt: seq<T>, vs: seq<T>): (r: Option<T>)
    ensures r.None? <==> forall k :: 0 <= k < |vs| ==> vs[k] in opt
    ensures r.Some? ==> exists k :: FirstMissingAt(opt, vs, k) && vs[k] == r.value
  {
    if vs == [] then None
    else if vs[0] !in opt then
      assert FirstMissingAt(opt, vs, 0);
      Some(vs[0])
    else
      var r := FirstMissing(opt, vs[1..]);
      assert r.None? ==> forall k :: 0 <= k < |vs| ==> vs[k] in opt by {
        if r.None? {
          forall k | 0 <= k < |vs| ensures vs[k] in opt {
            if k > 0 { assert vs[k] == vs[1..][k - 1]; }
          }
        }
      }
      assert r.Some? ==> exists k :: FirstMissingAt(opt, vs, k) && vs[k] == r.value by {
        if r.Some? {
          var k :| FirstMissingAt(opt, vs[1..], k) && vs[1..][k] == r.value;
          assert FirstMissingAt(opt, vs, k + 1);
        }
      }
      r
  }

  /** The comprehension `[opt.index(value) for value in vs]`. */
  function IndicesOf<T(==)>(opt: seq<T>, vs: seq<T>): (ix: seq<nat>)
    requires forall k :: 0 <= k < |vs| ==> vs[k] in opt
    ensures IndicesFor(opt, vs, ix)
  {
    if vs == [] then []
    else
      var rest := IndicesOf(opt, vs[1..]);
      assert forall k :: 1 <= k < |vs| ==> vs[k] == vs[1..][k - 1];
      [Index(opt, vs[0])] + rest
  }

  /** Check every default against the options, then map each to its first index:
      the error names the first default that is missing, and no partial result
      is returned. */
  function ResolveDefaults<T(==)>(opt: seq<T>, vs: seq<T>): (r: Result<seq<nat>, SelectorError<T>>)
    ensures r.Ok? <==> forall k :: 0 <= k < |vs| ==> vs[k] in opt
    ensures r.Ok? ==> IndicesFor(opt, vs, r.value)
    ensures r.Err? ==> exists k :: FirstMissingAt(opt, vs, k) && r.error == InvalidDefault(vs[k])
  {
    match FirstMissing(opt, vs)
    case Some(v) => Err(InvalidDefault(v))
    case None => Ok(IndicesOf(opt, vs))
  }

  /** What converting a default to indices promises: `None` (when `None` is not
      an option) gives no indices at all; otherwise the shape-normalised
      defaults either all are options and get their first positions, in the
      defaults' own order, or the first missing one is reported. */
  ghost predicate ConvertContract<T>(
    opt: seq<T>, isNone: T -> bool, d: ArgShape<T>, r: Result<Option<seq<nat>>, SelectorError<T>>)
  {
    && (r == Ok(None) <==> d.NoneArg? && !NoneIn(opt, isNone))
    && (!(d.NoneArg? && !NoneIn(opt, isNone)) ==>
          var n := NormalizeDefaults(opt, isNone, d);
          && (n.Err? ==> r == Err(n.error))
          && (n.Ok? ==>
                && (r.Ok? <==> forall k :: 0 <= k < |n.value| ==> n.value[k] in opt)
                && (r.Ok? ==> r.value.Some? && IndicesFor(opt, n.value, r.value.value))
                && (r.Err? ==> exists k :: FirstMissingAt(opt, n.value, k) && r.error == InvalidDefault(n.value[k]))))
  }

  /** A value the index-list serde can write: `None` when `None` is not an
      option, or a value whose normalised form is made of options only. */
  ghost predicate Serializable<T>(opt: seq<T>, isNone: T -> bool, a: ArgShape<T>) {
    || (a.NoneArg? && !NoneIn(opt, isNone))
    || (var n := NormalizeDefaults(opt, isNone, a); n.Ok? && forall k :: 0 <= k < |n.value| ==> n.value[k] in opt)
  }

  /** `ix` is what the index-list serde writes for the value: nothing for a
      `None` that is not an option, otherwise the first positions of the
      value's normalised form, in its order. */
  ghost predicate SerializedAs<T>(opt: seq<T>, isNone: T -> bool, a: ArgShape<T>, ix: seq<int>) {
    if a.NoneArg? && !NoneIn(opt, isNone) then ix == []
    else NormalizeDefaults(opt, isNone, a).Ok? && IndicesFor(opt, NormalizeDefaults(opt, isNone, a).value, ix)
  }

  /** `_check_and_convert_to_indices`. */
  function CheckAndConvertToIndices<T(==)>(opt: seq<T>, isNone: T -> bool, d: ArgShape<T>): (r: Result<Option<seq<nat>>, SelectorError<T>>)
    ensures ConvertContract(opt, isNone, d, r)
  {
    if d.NoneArg? && !NoneIn(opt, isNone) then Ok(None)
    else
      var vs :- NormalizeDefaults(opt, isNone, d);
      var ix :- ResolveDefaults(opt, vs);
      Ok(Some(ix))
  }

  /** A value that is itself an option is never split, truthy or not: it maps
      to the single position where it first occurs. */
  lemma OptionValueIsNotSplit<T>(opt: seq<T>, isNone: T -> bool, v: T, truthy: bool, elems: Option<seq<T>>)
    requires v in opt
    ensures CheckAndConvertToIndices(opt, isNone, ScalarArg(v, truthy, elems)) == Ok(Some([Index(opt, v)]))
  {
    var r := CheckAndConvertToIndices(opt, isNone, ScalarArg(v, truthy, elems));
    IndicesForUnique(opt, [v], r.value.value, [Index(opt, v)]);
  }

  /** A non-empty string that is not itself an option is split into its
      characters, each of which must then be an option. */
  lemma StringDefaultIsSplit(opt: seq<Value>, s: string)
    requires s != "" && PyStr(s) !in opt
    ensures var r := CheckAndConvertToIndices(opt, IsPyNone, ShapeOf(PyStr(s)));
      && (r.Ok? <==> forall k :: 0 <= k < |s| ==> PyStr([s[k]]) in opt)
      && (r.Ok? ==> r.value.Some? && |r.value.value| == |s|
                    && forall k :: 0 <= k < |s| ==> IsFirstIndex(opt, PyStr([s[k]]), r.value.value[k]))
  {
  }

  /** A falsy value that is not an option is not iterated: it is looked up as
      a whole, and so raises for that value. */
  lemma FalsyDefaultIsWrapped<T>(opt: seq<T>, isNone: T -> bool, v: T, elems: Option<seq<T>>)
    requires v !in opt
    ensures CheckAndConvertToIndices(opt, isNone, ScalarArg(v, false, elems)) == Err(InvalidDefault(v))
  {
    var r := CheckAndConvertToIndices(opt, isNone, ScalarArg(v, false, elems));
    assert FirstMissingAt(opt, [v], 0);
  }

  /** The conversions pinned by the unit tests: a `None` default over `["a"]`,
      then `"a"`, a container holding `"b"`, and `"c"` over `["a", "b"]`. The
      last case, `None` among the options, is an added example. */
  lemma ConvertExamples()
    ensures CheckAndConvertToIndices([PyStr("a")], IsPyNone, NoneArg) == Ok(None)
    ensures CheckAndConvertToIndices([PyStr("a"), PyStr("b")], IsPyNone, ShapeOf(PyStr("a"))) == Ok(Some([0]))
    ensures CheckAndConvertToIndices([PyStr("a"), PyStr("b")], IsPyNone, ContainerArg([PyStr("b")])) == Ok(Some([1]))
    ensures CheckAndConvertToIndices([PyStr("a"), PyStr("b")], IsPyNone, ShapeOf(PyStr("c"))).Err?
    ensures CheckAndConvertToIndices([PyStr("a"), PyNone], IsPyNone, NoneArg) == Ok(Some([1]))
  {
    var ab := [PyStr("a"), PyStr("b")];
    assert !NoneIn([PyStr("a")], IsPyNone);
    OptionValueIsNotSplit(ab, IsPyNone, PyStr("a"), true, ShapeOf(PyStr("a")).elems);
    assert ShapeOf(PyStr("a")) == ScalarArg(PyStr("a"), true, ShapeOf(PyStr("a")).elems);
    var r := CheckAndConvertToIndices(ab, IsPyNone, ContainerArg([PyStr("b")]));
    assert IsFirstIndex(ab, PyStr("b"), 1);
    IndicesForUnique(ab, [PyStr("b")], r.value.value, [1]);
    assert ShapeOf(PyStr("c")).elems.value == [PyStr("c")];
    assert NoneIn([PyStr("a"), PyNone], IsPyNone) by { assert IsPyNone([PyStr("a"), PyNone][1]); }
  }

  // ---------------------------------------------------------------------------
  // Index-list serde
  // ---------------------------------------------------------------------------

  /** Position `k` holds the first index that does not subscript the options. */
  predicate FirstOutOfRangeAt(n: nat, ix: seq<int>, k: int) {
    0 <= k < |ix| && !InRange(n, ix[k]) && forall j :: 0 <= j < k ==> InRange(n, ix[j])
  }

  /** The comprehension `[opt[i] for i in ix]`, which raises on the first index
      outside the list. */
  function Pick<T>(opt: seq<T>, ix: seq<int>): (r: Result<seq<T>, SelectorError<T>>)
    ensures r.Ok? <==> forall k :: 0 <= k < |ix| ==> InRange(|opt|, ix[k])
    ensures r.Ok? ==> |r.value| == |ix| && forall k :: 0 <= k < |ix| ==> r.value[k] == Subscript(opt, ix[k])
    ensures r.Err? ==> exists k :: FirstOutOfRangeAt(|opt|, ix, k) && r.error == IndexOutOfRange(ix[k])
  {
    if ix == [] then Ok([])
    else if !InRange(|opt|, ix[0]) then
      assert FirstOutOfRangeAt(|opt|, ix, 0);
      Err(IndexOutOfRange(ix[0]))
    else
      var r := Pick(opt, ix[1..]);
      assert forall k :: 1 <= k < |ix| ==> ix[k] == ix[1..][k - 1];
      if r.Err? then
        var k :| FirstOutOfRangeAt(|opt|, ix[1..], k) && r.error == IndexOutOfRange(ix[1..][k]);
        assert FirstOutOfRangeAt(|opt|, ix, k + 1);
        Err(r.error)
      else
        Ok([Subscript(opt, ix[0])] + r.value)
  }

  /** `MultiSelectSerde`: options and the default indices a fresh widget shows.
      `isNone` recognises the option that is Python's `None`. */
  datatype MultiSelectSerde<!T(==)> = MultiSelectSerde(options: seq<T>, defaultValue: seq<int>, isNone: T -> bool) {

    /** The indices a wire value stands for: the value itself, or the default
        indices when the frontend sent nothing. */
    function Current(uiValue: Option<seq<int>>): seq<int> {
      if uiValue.Some? then uiValue.value else defaultValue
    }

    /** `serialize`: convert a value as a default would be, with "no indices"
        becoming the empty list. */
    function Serialize(value: ArgShape<T>): (r: Result<seq<nat>, SelectorError<T>>)
      ensures value.NoneArg? && !NoneIn(options, isNone) ==> r == Ok([])
      ensures value.ListArg? ==> (r.Ok? <==> forall k :: 0 <= k < |value.items| ==> value.items[k] in options)
      ensures value.ListArg? && r.Ok? ==> IndicesFor(options, value.items, r.value)
      ensures r.Ok? <==> Serializable(options, isNone, value)
      ensures r.Ok? ==> SerializedAs(options, isNone, value, r.value)
      ensures r.Err? ==> CheckAndConvertToIndices(options, isNone, value) == Err(r.error)
    {
      var indices :- CheckAndConvertToIndices(options, isNone, value);
      Ok(if indices.Some? then indices.value else [])
    }

    /** `deserialize`: the options at the given indices, or at the default
        indices when the wire value is absent. */
    function Deserialize(uiValue: Option<seq<int>>): (r: Result<seq<T>, SelectorError<T>>)
      ensures r.Ok? <==> forall k :: 0 <= k < |Current(uiValue)| ==> InRange(|options|, Current(uiValue)[k])
      ensures r.Ok? ==> |r.value| == |Current(uiValue)|
      ensures r.Ok? ==> forall k :: 0 <= k < |r.value| ==> r.value[k] == Subscript(options, Current(uiValue)[k])
      ensures uiValue.None? && defaultValue == [] ==> r == Ok([])
    {
      Pick(options, Current(uiValue))
    }
  }

  /** Serializing a list of options and deserializing the indices gives the
      list back. */
  lemma SerdeRoundTrip<T>(serde: MultiSelectSerde<T>, vs: seq<T>)
    requires forall k :: 0 <= k < |vs| ==> vs[k] in serde.options
    ensures serde.Serialize(ListArg(vs)).Ok?
    ensures serde.Deserialize(Some(serde.Serialize(ListArg(vs)).value)) == Ok(vs)
  {
    var ix := serde.Serialize(ListArg(vs)).value;
    var r := serde.Deserialize(Some(ix));
    assert forall k :: 0 <= k < |ix| ==> InRange(|serde.options|, ix[k]);
    assert r.Ok?;
    assert r.value == vs;
  }

  /** Over distinct options, deserializing in-range indices and serializing the
      result gives the same indices back. */
  lemma DeserializeRoundTrip<T>(serde: MultiSelectSerde<T>, ix: seq<int>)
    requires Distinct(serde.options)
    requires forall k :: 0 <= k < |ix| ==> 0 <= ix[k] < |serde.options|
    ensures serde.Deserialize(Some(ix)).Ok?
    ensures serde.Serialize(ListArg(serde.Deserialize(Some(ix)).value)) == Ok(ix)
  {
    var vs := serde.Deserialize(Some(ix)).value;
    assert forall k :: 0 <= k < |vs| ==> vs[k] == serde.options[ix[k]];
    var r := serde.Serialize(ListArg(vs));
    assert r.Ok?;
    forall k | 0 <= k < |ix| ensures IsFirstIndex(serde.options, vs[k], ix[k]) {
      var opt := serde.options;
      forall j | 0 <= j < ix[k] ensures opt[j] != vs[k] {
        assert opt[j] != opt[ix[k]];
      }
    }
    IndicesForUnique(serde.options, vs, r.value, ix);
  }

  /** Indices come back in the order the caller listed the values, not the
      options' order: selecting `[c, a]` from `[a, b, c]` gives `[2, 0]`. */
  lemma SerializeKeepsCallerOrder()
    ensures MultiSelectSerde([PyStr("a"), PyStr("b"), PyStr("c")], [], IsPyNone)
              .Serialize(ListArg([PyStr("c"), PyStr("a")])) == Ok([2, 0])
  {
    var opt := [PyStr("a"), PyStr("b"), PyStr("c")];
    var r := MultiSelectSerde(opt, [], IsPyNone).Serialize(ListArg([PyStr("c"), PyStr("a")]));
    assert IsFirstIndex(opt, PyStr("c"), 2);
    assert IsFirstIndex(opt, PyStr("a"), 0);
    IndicesForUnique(opt, [PyStr("c"), PyStr("a")], r.value, [2, 0]);
  }

  // ---------------------------------------------------------------------------
  // Max selections
  // ---------------------------------------------------------------------------

  /** `_get_default_count`: nothing for `None`, one for a value that cannot be
      iterated, and the length of anything else. */
  function GetDefaultCount<T>(a: ArgShape<T>): (n: nat)
    ensures a.NoneArg? ==> n == 0
    ensures a.ScalarArg? && a.elems.None? ==> n == 1
    ensures a.ListArg? || a.ContainerArg? ==> n == |a.items|
    ensures a.ScalarArg? && a.elems.Some? ==> n == |a.elems.value|
  {
    match a
    case NoneArg => 0
    case ListArg(items) => |items|
    case ContainerArg(items) => |items|
    case ScalarArg(_, _, elems) => if elems.None? then 1 else |elems.value|
  }

  /** The counts pinned by the unit tests. */
  lemma DefaultCountExamples()
    ensures GetDefaultCount(ListArg([PyStr("a"), PyStr("b"), PyStr("c")])) == 3
    ensures GetDefaultCount(ListArg([PyStr("a")])) == 1
    ensures GetDefaultCount<Value>(ListArg([])) == 0
    ensures GetDefaultCount(ShapeOf(PyStr("a"))) == 1
    ensures GetDefaultCount(ShapeOf(PyNone)) == 0
    ensures GetDefaultCount(ContainerArg([PyStr("a"), PyStr("b"), PyStr("c")])) == 3
  {
  }

  /** For a list selection the count is the number of values, which is also
      the number of indices the selection serializes to. */
  lemma DefaultCountIsSelectionLength<T>(serde: MultiSelectSerde<T>, vs: seq<T>)
    ensures GetDefaultCount(ListArg(vs)) == |vs|
    ensures serde.Serialize(ListArg(vs)).Ok? ==> GetDefaultCount(ListArg(vs)) == |serde.Serialize(ListArg(vs)).value|
  {
  }

  /** Apart from `None`, a falsy iterable and an iterable that is itself an
      option, the count is the number of defaults the conversion lists. */
  lemma DefaultCountIsNormalizedLength<T>(opt: seq<T>, isNone: T -> bool, d: ArgShape<T>)
    requires !d.NoneArg?
    requires d.ScalarArg? && d.elems.Some? ==> d.truthy && d.v !in opt
    ensures NormalizeDefaults(opt, isNone, d).Ok? ==> GetDefaultCount(d) == |NormalizeDefaults(opt, isNone, d).value|
  {
  }

  /** The three cases where the count and the conversion part ways: `None`
      counts 0 but converts to the `None` option, the empty string counts 0
      but converts to itself, and a string option counts its characters but
      converts to one value. */
  lemma DefaultCountDiffersFromConversion()
    ensures GetDefaultCount(ShapeOf(PyNone)) == 0
    ensures NoneIn([PyNone], IsPyNone) && NormalizeDefaults([PyNone], IsPyNone, ShapeOf(PyNone)) == Ok([PyNone])
    ensures GetDefaultCount(ShapeOf(PyStr(""))) == 0
    ensures NormalizeDefaults([PyStr("")], IsPyNone, ShapeOf(PyStr(""))) == Ok([PyStr("")])
    ensures GetDefaultCount(ShapeOf(PyStr("ab"))) == 2
    ensures NormalizeDefaults([PyStr("ab")], IsPyNone, ShapeOf(PyStr("ab"))) == Ok([PyStr("ab")])
  {
    assert NoneIn([PyNone], IsPyNone) by { assert IsPyNone([PyNone][0]); }
  }

  /** The over-max rule `max_selections and count > max_selections`: an absent
      or zero limit is falsy and never raises; any other limit raises exactly
      when the count exceeds it, so a negative limit rejects every count,
      even an empty selection. */
  function ExceedsMax(count: nat, maxSelections: Option<int>): (exceeds: bool)
    ensures maxSelections.None? || maxSelections == Some(0) ==> !exceeds
    ensures maxSelections.Some? && maxSelections.value != 0 ==> (exceeds <==> count > maxSelections.value)
    ensures maxSelections.Some? && maxSelections.value < 0 ==> exceeds
    ensures !exceeds && maxSelections.Some? && maxSelections.value > 0 ==> count <= maxSelections.value
  {
    maxSelections.Some? && maxSelections.value != 0 && count > maxSelections.value
  }

  /** "option" for exactly one, "options" otherwise. */
  function Noun(n: int): (r: string)
    ensures r == "option" <==> n == 1
    ensures r == "option" || r == "options"
  {
    if n == 1 then "option" else "options"
  }

  /** The opening sentence: the current count with its own noun. */
  function SelectedClause(current: int): string {
    "\nMultiselect has " + IntToString(current) + " " + Noun(current) + " selected"
  }

  /** The closing request: the limit with its own noun. */
  function LimitClause(maxSelections: int): string {
    "Please select at most " + IntToString(maxSelections) + " " + Noun(maxSelections) + ".\n"
  }

  /** The words of the message's middle, shared by both copies, split where
      either copy breaks a line. The three long phrases are the explanation
      of how the selection can have got past the limit. */
  function BecauseDefault(): string {
    "This happened because you either gave too many options to `default`"
  }

  function OrSessionState(): string {
    "or you manipulated the widget's state through `st.session_state`. Note that"
  }

  function BeforeTraceback(): string {
    "the latter can happen before the line indicated in the traceback."
  }

  function MiddlePhrases(maxSelections: int): (ps: seq<string>)
    ensures |ps| == 5
  {
    [" but `max_selections`", "is set to " + IntToString(maxSelections) + ".",
     BecauseDefault(), OrSessionState(), BeforeTraceback()]
  }

  /** A space or a line break: what separates two phrases of the message. */
  predicate IsBreak(c: char) {
    c == ' ' || c == '\n'
  }

  /** The phrases, each followed by its separator. */
  function Interleave(phrases: seq<string>, seps: string): string
    requires |seps| == |phrases|
  {
    if phrases == [] then [] else phrases[0] + [seps[0]] + Interleave(phrases[1..], seps[1..])
  }

  /** The text as one line: every line break read as a space. */
  function Flatten(s: string): (t: string)
    ensures |t| == |s|
    ensures forall i :: 0 <= i < |s| ==> t[i] == (if s[i] == '\n' then ' ' else s[i])
  {
    seq(|s|, i requires 0 <= i < |s| => if s[i] == '\n' then ' ' else s[i])
  }

  lemma FlattenConcat(a: string, b: string)
    ensures Flatten(a + b) == Flatten(a) + Flatten(b)
  {
    assert forall i :: 0 <= i < |a + b| ==> Flatten(a + b)[i] == (Flatten(a) + Flatten(b))[i];
  }

  /** The same phrases joined by different breaks read the same as one line. */
  lemma {:induction false} FlattenIgnoresBreaks(phrases: seq<string>, s1: string, s2: string)
    requires |s1| == |phrases| && |s2| == |phrases|
    requires forall i :: 0 <= i < |phrases| ==> IsBreak(s1[i]) && IsBreak(s2[i])
    ensures Flatten(Interleave(phrases, s1)) == Flatten(Interleave(phrases, s2))
  {
    if phrases != [] {
      FlattenIgnoresBreaks(phrases[1..], s1[1..], s2[1..]);
      var rest1 := Interleave(phrases[1..], s1[1..]);
      var rest2 := Interleave(phrases[1..], s2[1..]);
      FlattenConcat(phrases[0] + [s1[0]], rest1);
      FlattenConcat(phrases[0] + [s2[0]], rest2);
      FlattenConcat(phrases[0], [s1[0]]);
      FlattenConcat(phrases[0], [s2[0]]);
      assert Flatten([s1[0]]) == Flatten([s2[0]]);
    }
  }

  /** Where the newer copy breaks the middle: after `max_selections`, after
      `default`, after "Note that" and at the end. */
  function NewerBreaks(): (seps: string)
    ensures |seps| == 5 && forall i :: 0 <= i < 5 ==> IsBreak(seps[i])
  {
    "\n \n\n\n"
  }

  /** The middle sentences: the limit, and how the selection can have got
      there, wrapped at the newer copy's line breaks. */
  function LimitExplanation(maxSelections: int): string {
    Interleave(MiddlePhrases(maxSelections), NewerBreaks())
  }

  /** `m` reads as `head`, then `middle`, then `tail`. */
  predicate SplitsInto<X(==)>(m: seq<X>, head: seq<X>, middle: seq<X>, tail: seq<X>) {
    && |head| + |tail| <= |m|
    && m[..|head|] == head
    && m[|m| - |tail|..] == tail
    && m[|head|..|m| - |tail|] == middle
  }

  /** The three parts of a concatenation can be read back. */
  lemma ConcatEnds<X>(a: seq<X>, b: seq<X>, c: seq<X>)
    ensures SplitsInto(a + b + c, a, b, c)
  {
  }

  /** `_get_over_max_options_message`: the message opens with the current
      count, states the limit and its two possible causes, and closes by
      asking for at most the limit. */
  function OverMaxOptionsMessage(current: int, maxSelections: int): (m: string)
    ensures SplitsInto(m, SelectedClause(current), LimitExplanation(maxSelections), LimitClause(maxSelections))
  {
    ConcatEnds(SelectedClause(current), LimitExplanation(maxSelections), LimitClause(maxSelections));
    SelectedClause(current) + LimitExplanation(maxSelections) + LimitClause(maxSelections)
  }

  /** In the opening and closing clauses each number is followed by "option"
      exactly when it is 1, independently of the other number. */
  lemma OverMaxMessagePluralisation(current: int, maxSelections: int)
    ensures SelectedClause(current) == "\nMultiselect has " + IntToString(current) + " "
              + (if current == 1 then "option" else "options") + " selected"
    ensures LimitClause(maxSelections) == "Please select at most " + IntToString(maxSelections) + " "
              + (if maxSelections == 1 then "option" else "options") + ".\n"
  {
  }

  /** The opening clauses of the unit tests' messages. */
  lemma SelectedClauseExamples()
    ensures SelectedClause(3) == "\nMultiselect has 3 options selected"
    ensures SelectedClause(1) == "\nMultiselect has 1 option selected"
    ensures SelectedClause(2) == "\nMultiselect has 2 options selected"
  {
    assert IntToString(3) == "3";
    assert IntToString(2) == "2";
    assert IntToString(1) == "1";
  }

  /** The closing clauses of the unit tests' messages. */
  lemma LimitClauseExamples()
    ensures LimitClause(2) == "Please select at most 2 options.\n"
    ensures LimitClause(1) == "Please select at most 1 option.\n"
    ensures LimitClause(0) == "Please select at most 0 options.\n"
  {
    assert IntToString(2) == "2";
    assert IntToString(1) == "1";
    assert IntToString(0) == "0";
  }

  // ---------------------------------------------------------------------------
  // Option transformation
  // ---------------------------------------------------------------------------

  /** The three results of `transform_options`. */
  datatype Transformed<T, L> = Transformed(indexable: seq<T>, formatted: seq<L>, defaults: seq<nat>)

  /** `transform_options`: the options as given, one label per option in the
      same order (`str` when no format function is given), and the default
      indices, empty when the default converts to no indices. */
  function TransformOptions<T(==), L>(
    options: seq<T>,
    isNone: T -> bool,
    default: ArgShape<T>,
    format: Option<T -> L>,
    str: T -> L
  ): (r: Result<Transformed<T, L>, SelectorError<T>>)
    ensures r.Ok? <==> CheckAndConvertToIndices(options, isNone, default).Ok?
    ensures r.Err? ==> r.error == CheckAndConvertToIndices(options, isNone, default).error
    ensures r.Ok? ==> r.value.indexable == options
    ensures r.Ok? ==> |r.value.formatted| == |options|
    ensures r.Ok? ==> forall k :: 0 <= k < |options| ==>
      r.value.formatted[k] == (if format.Some? then format.value(options[k]) else str(options[k]))
    ensures r.Ok? && default.NoneArg? && !NoneIn(options, isNone) ==> r.value.defaults == []
    ensures r.Ok? && !(default.NoneArg? && !NoneIn(options, isNone)) ==>
      IndicesFor(options, NormalizeDefaults(options, isNone, default).value, r.value.defaults)
  {
    var indices :- CheckAndConvertToIndices(options, isNone, default);
    var f := if format.Some? then format.value else str;
    Ok(Transformed(options, seq(|options|, k requires 0 <= k < |options| => f(options[k])),
                   if indices.Some? then indices.value else []))
  }

  /** A fresh widget (no wire value) deserializes to the normalised defaults:
      the serde built from `transform_options` reproduces the caller's default. */
  lemma DefaultRoundTrip<T, L>(
    options: seq<T>, isNone: T -> bool, default: ArgShape<T>, format: Option<T -> L>, str: T -> L)
    requires TransformOptions(options, isNone, default, format, str).Ok?
    ensures var t := TransformOptions(options, isNone, default, format, str).value;
      var serde := MultiSelectSerde(t.indexable, t.defaults, isNone);
      serde.Deserialize(None) ==
        (if default.NoneArg? && !NoneIn(options, isNone) then Ok([])
         else NormalizeDefaults(options, isNone, default))
  {
    var t := TransformOptions(options, isNone, default, format, str).value;
    var serde := MultiSelectSerde(t.indexable, t.defaults, isNone);
    var r := serde.Deserialize(None);
    if !(default.NoneArg? && !NoneIn(options, isNone)) {
      var vs := NormalizeDefaults(options, isNone, default).value;
      assert forall k :: 0 <= k < |t.defaults| ==> InRange(|options|, t.defaults[k]);
      assert r.value == vs;
    }
  }

  /** Python's `str` on the example values. */
  function Str(v: Value): string {
    match v
    case PyNone => "None"
    case PyStr(s) => s
    case PyInt(i) => IntToString(i)
  }

  /** The label function of the first unit test: `transformed_` and the option. */
  function PrefixLabel(v: Value): string {
    "transformed_" + Str(v)
  }

  /** The values pinned by the unit tests: a string default that is an option
      and an int default that is an option are each selected whole, and the
      labels are the format function's (or `str`'s) in option order. */
  lemma TransformExamples()
    ensures var t := TransformOptions([PyStr("a"), PyStr("b"), PyStr("c")], IsPyNone, ShapeOf(PyStr("b")),
                                      Some(PrefixLabel), Str);
      && t.Ok?
      && t.value.indexable == [PyStr("a"), PyStr("b"), PyStr("c")]
      && t.value.formatted == ["transformed_a", "transformed_b", "transformed_c"]
      && t.value.defaults == [1]
    ensures var t := TransformOptions([PyInt(5), PyInt(6), PyInt(7)], IsPyNone, ShapeOf(PyInt(7)), None, Str);
      && t.Ok?
      && t.value.formatted == ["5", "6", "7"]
      && t.value.defaults == [2]
  {
    var abc := [PyStr("a"), PyStr("b"), PyStr("c")];
    assert !NoneIn(abc, IsPyNone) by {
      forall k | 0 <= k < |abc| ensures !IsPyNone(abc[k]) { }
    }
    OptionValueIsNotSplit(abc, IsPyNone, PyStr("b"), true, ShapeOf(PyStr("b")).elems);
    assert ShapeOf(PyStr("b")) == ScalarArg(PyStr("b"), true, ShapeOf(PyStr("b")).elems);
    var t1 := TransformOptions(abc, IsPyNone, ShapeOf(PyStr("b")), Some(PrefixLabel), Str);
    assert IsFirstIndex(abc, PyStr("b"), 1);
    IndicesForUnique(abc, [PyStr("b")], t1.value.defaults, [1]);
    assert t1.value.formatted[0] == PrefixLabel(abc[0]) == "transformed_a";
    assert t1.value.formatted[1] == PrefixLabel(abc[1]) == "transformed_b";
    assert t1.value.formatted[2] == PrefixLabel(abc[2]) == "transformed_c";

    var n567 := [PyInt(5), PyInt(6), PyInt(7)];
    assert !NoneIn(n567, IsPyNone) by {
      forall k | 0 <= k < |n567| ensures !IsPyNone(n567[k]) { }
    }
    var t2 := TransformOptions(n567, IsPyNone, ShapeOf(PyInt(7)), None, Str);
    assert NormalizeDefaults(n567, IsPyNone, ShapeOf(PyInt(7))) == Ok([PyInt(7)]);
    assert IsFirstIndex(n567, PyInt(7), 2);
    IndicesForUnique(n567, [PyInt(7)], t2.value.defaults, [2]);
    assert IntToString(5) == "5" && IntToString(6) == "6" && IntToString(7) == "7";
    assert t2.value.formatted[0] == Str(n567[0]) == "5";
    assert t2.value.formatted[1] == Str(n567[1]) == "6";
    assert t2.value.formatted[2] == Str(n567[2]) == "7";
  }

  // ---------------------------------------------------------------------------
  // Registration and emission
  // ---------------------------------------------------------------------------

  /** `register_widget_and_enqueue`, from the registry's answer on: count the
      value and enforce `max_selections`, then write the override when the
      value changed. The returned state is the registry's. */
  function RegisterWidgetAndEnqueue<T, V, L>(
    proto: WidgetProto<L>,
    serializer: V -> Result<seq<int>, SelectorError<T>>,
    shape: V -> ArgShape<T>,
    state: WidgetState<V>,
    maxSelections: Option<int>
  ): (r: Result<Emitted<V, L>, SelectorError<T>>)
    ensures var count := GetDefaultCount(shape(state.value));
      ExceedsMax(count, maxSelections) ==>
        r == Err(OverMaxSelections(count, maxSelections.value, NewerLayout))
    ensures !ExceedsMax(GetDefaultCount(shape(state.value)), maxSelections) ==>
      (r.Ok? <==> ApplyOverride(proto, state, serializer).Ok?)
    ensures r.Ok? ==> r.value.state == state && r.value.proto == ApplyOverride(proto, state, serializer).value
    ensures r.Ok? && !state.valueChanged ==> r.value.proto == proto
  {
    var count := GetDefaultCount(shape(state.value));
    if ExceedsMax(count, maxSelections) then
      Err(OverMaxSelections(count, maxSelections.value, NewerLayout))
    else
      var emitted :- ApplyOverride(proto, state, serializer);
      Ok(Emitted(emitted, state))
  }
}

=== FILE: py_model.dfy ===
/** The slice of Python's runtime the option selectors lean on: how a value
    is dispatched by its type (`isinstance`, truthiness, iteration), and the
    list operations `x in xs`, `xs.index(x)` and `xs[i]`. */
module PyModel {
  import opened Results
  import opened Text

  /** How Python's type dispatch sees a value handed to the selectors, such as
      a caller's `default` or a stored widget value.
      - `NoneArg`: Python's `None`.
      - `ListArg`: a `list`.
      - `ContainerArg`: a tuple, set, numpy array or pandas Series, with its
        iteration order.
      - `ScalarArg`: anything else. `truthy` is its truth value, and `elems`
        is what iterating it yields (the characters of a string, the keys of a
        dict). `elems` is `None` when the value is not iterable.
      Python's `None` is only ever `NoneArg`, never a `ScalarArg`. */
  datatype ArgShape<T> =
    | NoneArg
    | ListArg(items: seq<T>)
    | ContainerArg(items: seq<T>)
    | ScalarArg(v: T, truthy: bool, elems: Option<seq<T>>)

  /** `None in opt`, where `isNone` recognises the option value that is Python's `None`. */
  predicate NoneIn<T>(opt: seq<T>, isNone: T -> bool) {
    exists k :: 0 <= k < |opt| && isNone(opt[k])
  }

  /** `i` is the position `opt.index(v)` returns: `v` sits at `i` and nowhere before it. */
  predicate IsFirstIndex<T(==)>(opt: seq<T>, v: T, i: int) {
    0 <= i < |opt| && opt[i] == v && forall j :: 0 <= j < i ==> opt[j] != v
  }

  /** `opt.index(v)` has only one possible answer. */
  lemma FirstIndexUnique<T>(opt: seq<T>, v: T, i: int, j: int)
    requires IsFirstIndex(opt, v, i) && IsFirstIndex(opt, v, j)
    ensures i == j
  {
  }

  /** No option occurs twice. */
  predicate Distinct<T(==)>(opt: seq<T>) {
    forall i, j :: 0 <= i < j < |opt| ==> opt[i] != opt[j]
  }

  /** Python's `opt.index(v)`: the first position holding `v`. */
  function Index<T(==)>(opt: seq<T>, v: T): (i: nat)
    requires v in opt
    ensures IsFirstIndex(opt, v, i)
  {
    if opt[0] == v then 0
    else
      var i := Index(opt[1..], v);
      assert forall j :: 1 <= j < 1 + i ==> opt[j] == opt[1..][j - 1];
      1 + i
  }

  /** In distinct options, the position of an option is the only one holding it. */
  lemma DistinctIndex<T>(opt: seq<T>, i: int)
    requires Distinct(opt)
    requires 0 <= i < |opt|
    ensures Index(opt, opt[i]) == i
  {
  }

  /** The first option for which `isNone` holds: where `opt.index(None)` lands. */
  function NoneIndex<T>(opt: seq<T>, isNone: T -> bool): (i: nat)
    requires NoneIn(opt, isNone)
    ensures i < |opt| && isNone(opt[i])
    ensures forall j :: 0 <= j < i ==> !isNone(opt[j])
  {
    if isNone(opt[0]) then 0
    else
      assert NoneIn(opt[1..], isNone) by {
        var k :| 0 <= k < |opt| && isNone(opt[k]);
        assert opt[1..][k - 1] == opt[k];
      }
      var i := NoneIndex(opt[1..], isNone);
      assert forall j :: 1 <= j < 1 + i ==> opt[j] == opt[1..][j - 1];
      1 + i
  }

  /** Python's subscript `opt[i]` succeeds for `-n <= i < n`. */
  predicate InRange(n: nat, i: int) {
    -(n as int) <= i < n
  }

  /** Python's `opt[i]`: a negative position counts from the end. */
  function Subscript<T>(opt: seq<T>, i: int): T
    requires InRange(|opt|, i)
  {
    if i >= 0 then opt[i] else opt[|opt| + i]
  }

  /** A small concrete value domain for worked examples: strings, ints and `None`. */
  datatype Value = PyNone | PyStr(s: string) | PyInt(i: int)

  predicate IsPyNone(v: Value) {
    v.PyNone?
  }

  /** Python's `float` on a `Value`: an int converts exactly, a string of
      decimal digits is read as a number, and `None` or any other string
      raises (absent). */
  function FloatOf(v: Value): (r: Option<real>)
    ensures v.PyNone? ==> r.None?
    ensures v.PyInt? ==> r == Some(v.i as real)
    ensures v.PyStr? ==> (r.Some? <==> v.s != "" && AllDigits(v.s))
  {
    match v
    case PyNone => None
    case PyInt(i) => Some(i as real)
    case PyStr(s) => if s != "" && AllDigits(s) then Some(DigitsValue(s) as real) else None
  }

  /** `float(str(n))` is `n` again for every natural number. */
  lemma FloatOfNumeral(n: nat)
    ensures FloatOf(PyStr(NatToString(n))) == Some(n as real)
  {
    NatToStringRoundTrip(n);
  }

  /** How Python dispatches a single `Value`: strings iterate over their
      characters, ints are not iterable, and `""`, `0` and `None` are falsy. */
  function ShapeOf(v: Value): (a: ArgShape<Value>)
    ensures a.NoneArg? <==> v.PyNone?
    ensures a.ScalarArg? ==> a.v == v && (a.truthy <==> v != PyStr("") && v != PyInt(0))
    ensures a.ScalarArg? ==> (a.elems.Some? <==> v.PyStr?)
    ensures v.PyStr? ==> a.ScalarArg? && a.elems.Some? && |a.elems.value| == |v.s| && forall k :: 0 <= k < |v.s| ==> a.elems.value[k] == PyStr([v.s[k]])
  {
    match v
    case PyNone => NoneArg
    case PyStr(s) => ScalarArg(v, s != "", Some(seq(|s|, k requires 0 <= k < |s| => PyStr([s[k]]))))
    case PyInt(i) => ScalarArg(v, i != 0, None)
  }
}

=== FILE: results.dfy ===
/** Failure-compatible wrappers. A Python function that may return `None`
    becomes one returning `Option`; one that may raise becomes one returning
    `Result`, whose `Err` carries the exception the source would raise. */
module Results {

  datatype Option<+T> = None | Some(value: T)

  datatype Result<+R, +E> = Ok(value: R) | Err(error: E) {

    predicate IsFailure() {
      Err?
    }

    function PropagateFailure<U>(): Result<U, E>
      requires Err?
    {
      Err(error)
    }

    function Extract(): R
      requires Ok?
    {
      value
    }
  }
}

=== FILE: text.dfy ===
/** Decimal rendering of integers, as Python's f-string interpolation
    `f"{n}"` produces it for the counts in the over-max message. */
module Text {

  predicate IsDigit(c: char) {
    '0' <= c <= '9'
  }

  predicate AllDigits(s: string) {
    forall k :: 0 <= k < |s| ==> IsDigit(s[k])
  }

  function DigitChar(d: nat): (c: char)
    requires d < 10
    ensures IsDigit(c)
    ensures c as int - '0' as int == d
  {
    ('0' as int + d) as char
  }

  /** The decimal numeral of `n`, most significant digit first. */
  function NatToString(n: nat): (s: string)
    ensures |s| > 0 && AllDigits(s)
    ensures s[0] == '0' ==> n == 0
  {
    if n < 10 then [DigitChar(n)] else NatToString(n / 10) + [DigitChar(n % 10)]
  }

  /** The value of a string of decimal digits: the independent reading of a numeral. */
  function DigitsValue(s: string): nat
    requires AllDigits(s)
  {
    if s == [] then 0 else DigitsValue(s[..|s| - 1]) * 10 + (s[|s| - 1] as int - '0' as int)
  }

  /** Reading back the rendered numeral gives the number again. */
  lemma {:induction false} NatToStringRoundTrip(n: nat)
    ensures DigitsValue(NatToString(n)) == n
  {
    var s := NatToString(n);
    if n >= 10 {
      NatToStringRoundTrip(n / 10);
      assert s[..|s| - 1] == NatToString(n / 10);
    }
  }

  /** Python's `str(i)` for an int: a leading minus sign for negative values. */
  function IntToString(i: int): (s: string)
    ensures i < 0 <==> (|s| > 0 && s[0] == '-')
    ensures i >= 0 ==> AllDigits(s) && DigitsValue(s) == i
    ensures i < 0 ==> AllDigits(s[1..]) && DigitsValue(s[1..]) == -i
    ensures i >= 0 ==> |s| > 0 && (s[0] == '0' ==> s == "0")
    ensures i < 0 ==> |s| >= 2 && s[1] != '0'
  {
    NatToStringRoundTrip(if i < 0 then -i else i);
    if i < 0 then "-" + NatToString(-i) else NatToString(i)
  }
}

=== FILE: widget_runtime.dfy ===
/** What the option selectors share with the widget runtime around them:
    the errors they raise, the policy gate run before registration, the
    registry's answer, the widget protos they fill in, and the rule that
    writes a value override into a proto. */
module WidgetRuntime {
  import opened Results

  /** The four registration policies, in the order they are checked. */
  datatype PolicyRule = FragmentPath | CacheReplay | Callback | SessionState

  /** The verdicts of the four policy checks. Each check is an opaque collaborator
      that either passes or raises. */
  datatype PolicyGate = PolicyGate(
    fragmentPathOk: bool,
    cacheReplayOk: bool,
    callbackOk: bool,
    sessionStateOk: bool)

  /** The two copies of `_get_over_max_options_message`, which word the same
      message with different line breaks. */
  datatype MessageLayout = NewerLayout | OlderLayout

  /** The exceptions the selectors raise. The over-max exception is kept as
      the count, the limit and the copy of the message function that words
      it; its text is that copy's message for the two numbers. */
  datatype SelectorError<T> =
    | PolicyViolation(rule: PolicyRule)
    | InvalidDefault(value: T)             // a default that is not one of the options
    | NotIterable(value: T)                // `list(x)` on a value that cannot be iterated
    | IndexOutOfRange(index: int)          // `options[i]` outside the list
    | OverMaxSelections(current: int, maxSelections: int, layout: MessageLayout)  // more selections than `max_selections`
    | InvalidFeedbackOption(message: string)
    | NotANumber(value: T)                 // `float(x)` on a value that is not a number
    | NotCallable(what: string)            // calling an object that is not a function

  /** The check `check_multiselect_policies` stops at: the first of the four,
      in order, that fails, or none when all pass. */
  function FirstFailingPolicy(gate: PolicyGate): (rule: Option<PolicyRule>)
    ensures rule.None? <==> gate.fragmentPathOk && gate.cacheReplayOk && gate.callbackOk && gate.sessionStateOk
    ensures !gate.fragmentPathOk ==> rule == Some(FragmentPath)
    ensures gate.fragmentPathOk && !gate.cacheReplayOk ==> rule == Some(CacheReplay)
    ensures gate.fragmentPathOk && gate.cacheReplayOk && !gate.callbackOk ==> rule == Some(Callback)
    ensures gate.fragmentPathOk && gate.cacheReplayOk && gate.callbackOk && !gate.sessionStateOk ==>
      rule == Some(SessionState)
  {
    if !gate.fragmentPathOk then Some(FragmentPath)
    else if !gate.cacheReplayOk then Some(CacheReplay)
    else if !gate.callbackOk then Some(Callback)
    else if !gate.sessionStateOk then Some(SessionState)
    else None
  }

  /** `check_multiselect_policies`: run the four checks in order; the first that
      fails raises, and nothing after it runs. */
  function CheckPolicies<T>(gate: PolicyGate): (r: Result<(), SelectorError<T>>)
    ensures r.Ok? <==> gate.fragmentPathOk && gate.cacheReplayOk && gate.callbackOk && gate.sessionStateOk
    ensures !gate.fragmentPathOk ==> r == Err(PolicyViolation(FragmentPath))
    ensures gate.fragmentPathOk && !gate.cacheReplayOk ==> r == Err(PolicyViolation(CacheReplay))
    ensures gate.fragmentPathOk && gate.cacheReplayOk && !gate.callbackOk ==> r == Err(PolicyViolation(Callback))
    ensures gate.fragmentPathOk && gate.cacheReplayOk && gate.callbackOk && !gate.sessionStateOk ==>
      r == Err(PolicyViolation(SessionState))
    ensures r.Err? ==> r.error.PolicyViolation?
  {
    match FirstFailingPolicy(gate)
    case None => Ok(())
    case Some(rule) => Err(PolicyViolation(rule))
  }

  /** What the widget registry answers for one widget: its current value, and
      whether that value changed since the last run (a user interaction or a
      session-state write). The registry itself is an opaque collaborator. */
  datatype WidgetState<V> = WidgetState(value: V, valueChanged: bool)

  /** The script-run context a widget call sees. `page` is the active script
      hash (absent outside a script run). */
  datatype WidgetEnv = WidgetEnv(gate: PolicyGate, formId: string, page: Option<string>)

  datatype ClickMode =
    | Button | Radio | Checkbox             // the older ButtonGroup proto
    | SingleSelect | MultiSelect            // the newer ButtonGroup proto

  datatype SelectionVisualization = OnlySelected | AllUpToSelected

  datatype LabelVisibility = Visible | Hidden | Collapsed

  /** The fields only one proto class has. */
  datatype KindFields =
    | MultiSelectFields(
        labelText: string,
        maxSelections: int,
        placeholder: string,
        labelVisibility: LabelVisibility,
        help: Option<string>)
    | ButtonGroupFields(clickMode: ClickMode, selectionVisualization: SelectionVisualization)

  /** A MultiSelect or ButtonGroup proto as a record. `L` is the type of a
      rendered option label. `value` and `setValue` carry a forced override. */
  datatype WidgetProto<L> = WidgetProto(
    id: string,
    default: seq<int>,
    formId: string,
    disabled: bool,
    options: seq<L>,
    value: seq<int>,
    setValue: bool,
    fields: KindFields)

  /** What a widget call leaves behind: the proto it enqueues and the registry's
      answer it returns. */
  datatype Emitted<V, L> = Emitted(proto: WidgetProto<L>, state: WidgetState<V>)

  /** The arguments each widget hands to `compute_widget_id`, which hashes them. */
  datatype IdInputs<L> =
    | MultiSelectId(
        labelText: string,
        options: seq<L>,
        defaults: seq<int>,
        key: Option<string>,
        help: Option<string>,
        maxSelections: Option<int>,
        placeholder: string,
        formId: string,
        page: Option<string>)
    | ButtonGroupId(
        key: Option<string>,
        options: seq<L>,
        defaults: seq<int>,
        disabled: bool,
        selectionVisualization: SelectionVisualization,
        page: Option<string>)

  /** The emission rule: the serialized value and the "set" marker are written
      into the proto exactly when the registry reports a changed value;
      otherwise the proto is left as it was. A serializer that raises aborts
      the call. */
  function ApplyOverride<T, V, L>(
    proto: WidgetProto<L>,
    state: WidgetState<V>,
    serialize: V -> Result<seq<int>, SelectorError<T>>
  ): (r: Result<WidgetProto<L>, SelectorError<T>>)
    ensures !state.valueChanged ==> r == Ok(proto)
    ensures state.valueChanged && serialize(state.value).Ok? ==>
      r.Ok? && r.value.value == serialize(state.value).value && r.value.setValue
      && r.value == proto.(value := r.value.value, setValue := true)
    ensures state.valueChanged && serialize(state.value).Err? ==> r == Err(serialize(state.value).error)
  {
    if state.valueChanged then
      var wire :- serialize(state.value);
      Ok(proto.(value := wire, setValue := true))
    else
      Ok(proto)
  }

  /** A freshly built proto carries no override. */
  predicate Fresh<L>(proto: WidgetProto<L>) {
    proto.value == [] && !proto.setValue
  }

  /** On a fresh proto, the "set" marker ends up true exactly when the value
      changed, and an unchanged widget carries no override value at all. */
  lemma OverrideIffChanged<T, V, L>(
    proto: WidgetProto<L>,
    state: WidgetState<V>,
    serialize: V -> Result<seq<int>, SelectorError<T>>)
    requires Fresh(proto)
    requires ApplyOverride(proto, state, serialize).Ok?
    ensures ApplyOverride(proto, state, serialize).value.setValue <==> state.valueChanged
    ensures !state.valueChanged ==> ApplyOverride(proto, state, serialize).value.value == []
  {
  }
}
